=== FILE: README.md ===
# canary-launcher update core, in Dafny

This project models the decision logic and on-disk formats of the launcher's
`src/` updater, as pure functions over immutable data:

- **Update planning** (`UpdatePlanner`, `ClientUpdater.DetermineUpdatePlanAsync`).
  It decides between a full reinstall, an assets refresh and nothing. The inputs
  are the installed executable, the stored version record, the remote version,
  the assets URL and the remote assets signature.
- **Update execution** (`ClientUpdater`, `ExecuteUpdateAsync`), in these steps:
  - the short-circuits and argument errors;
  - the package download;
  - the replace-folder deletion, which uses the archive's top-level folders in an
    assets update;
  - the extraction;
  - the launcher-configuration sync;
  - the fallback chain that picks the version and signature to record;
  - the record write.
- **Extraction** (`Archive`, `ExtractZip` and `GetTopLevelFolders`):
  - path splitting on `/` and `\`;
  - skipping entries under an existing preserved folder (`conf`, `characterdata`,
    compared ignoring case);
  - the integer percentages reported while reading.
- **Launcher-configuration sync** (`ConfigSync`, `SyncLauncherConfigAsync` and its
  backup, restore and cleanup helpers). It is a backup / write / restore
  transaction over a map from path to text.
- **The version record** (`ClientVersionStore`, `Load` and `Save`). This is the
  1–3 line `client_version.txt`, read through `File.ReadAllLines` and written
  through `File.WriteAllLines` (`TextLines`). `Load` tells the new
  raw + normalised + signature layout apart from the legacy
  normalised + signature layout.
- **Resumable download and change signatures** (`DownloadManager`):
  - the `.part` file state machine, with open-ended `Range` requests (section 14.2
    of RFC 9110);
  - the restart after 416 (section 15.5.17 of RFC 9110) or after a 200 to a resume;
  - the append after 206 (section 15.3.7 of RFC 9110);
  - progress reports;
  - `ExtractSignature`, which takes the ETag (section 8.8.3 of RFC 9110) or else
    `"<length>:<last-modified>"`;
  - `FetchRemoteSignatureAsync` with its HEAD request and its `bytes=0-0` fallback.

`ResumeScenarios` adds a server holding one resource. With it, the model proves
that resuming an interrupted transfer gives the same file as one uninterrupted
download.

These parts are passed in as parameters:

- **Version helpers.** `NormalizeVersion`, `SplitVersionComponents` and
  `CompareNormalizedVersions` are not defined in the sources modelled. They are
  function-valued fields of a `Codec`, so every property holds for any such
  functions.
- **The network.** It is a `Server`: a function from request to reply.
- **ZIP decoding.** `openArchive` maps package bytes to a list of entries, or to
  null when the package is not an archive.
- **JSON deserialisation.** `parse` gives `Malformed`, `NullDocument` or
  `Parsed(config)`.
- **The launcher-configuration document.** This is what `GetStringAsync`
  returned, or null when it threw.
- **File-system refusals.** They are sets of unreadable or unwritable paths.
- **Backup names.** These are the temporary file names the backups get.

The client folder is modelled as:

- its files;
- its top-level folder names, folded by ASCII case to upper-case keys, since the code compares them
  ignoring case;
- the configuration files;
- the record file.

In these details the model follows the code exactly:

- Download percentages are not clamped to 100.
- When the versions are compared as normalised strings and the local one is
  newer, the plan is `None` without any signature check.
- A failed sync restores only the files it managed to back up.
- `Save` drops the raw version when it is blank (`IsNullOrWhiteSpace`), not only
  when it is empty.
- A blank but non-empty normalised version reaches `Save` and throws. The model
  reports this as `VersionRejected`.

## Model

| member | source | states |
|---|---|---|
| UpdatePlanner.DetermineUpdatePlan | src/ClientUpdater.cs:25-103 | The plan records the remote raw and normalised versions and the stored record; the executable counts as present iff it is named and installed; the assets URL is probed exactly when configured; `Full` iff the executable or local version is missing, or the base versions differ (structured path), or the local version compares lower; `Assets` iff the client is installed and, on the structured path, bases agree and timestamps differ with an assets URL or the signature changed, or, on the fallback, the comparison is 0 and the signature changed |
| UpdatePlanner.NewerLocalVersionIsKept | src/ClientUpdater.cs:85-100 | When the numeric fallback finds the local version newer, the plan is `None` whatever the signatures |
| UpdatePlanner.UpToDateNeedsNothing | src/ClientUpdater.cs:55-100 | An installed client whose record holds the remote version, its normalisation and the remote signature needs no update (given a comparator that finds a version equal to itself) |
| ClientUpdater.ExecuteUpdate | src/ClientUpdater.cs:113-132 | A null plan throws and a `None` plan returns the local versions, both before anything is touched; a missing download URL throws; otherwise the first request is the resume request for the mode's package and the first status names the mode |
| ClientUpdater.Install | src/ClientUpdater.cs:132-184 | After a download: the status list, the package read, the deletions confined to listed existing folders (and to the archive's folders in an assets update), only the two configuration files touched, and on success the extraction, the folder set, the package removed and the result and record as the synced configuration and plan give |
| ClientUpdater.Deletions | src/ClientUpdater.cs:134-157 | The deleted folders are exactly the existing ones named by a non-null, non-blank list entry when replacing is enabled and listed, restricted in an assets update to the archive's top-level folders |
| ClientUpdater.UpdateDeletesOnlyListedFolders | src/ClientUpdater.cs:134-157 | An update deletes only existing folders the replace list names, and in an assets update only ones the downloaded archive brings |
| ClientUpdater.Unpack | src/ClientUpdater.cs:134-161 | An unreadable archive in an assets update that replaces folders throws before any deletion; otherwise the replaceable folders are deleted; the result is an error exactly when the archive is unreadable; on success the archive is extracted over what the deletions left and the package is deleted |
| ClientUpdater.CompletedUpdateExtracts | src/ClientUpdater.cs:159-161 | A completed update extracted the downloaded archive over the remaining folders, added its top-level folders, deleted the package and reported extraction up to 100 |
| ClientUpdater.PersistedValues | src/ClientUpdater.cs:163-179 | The raw version is the synced configuration's, else the caller's, else the plan's; the normalised one is its normalisation, else the plan's; the signature is the plan's, else one fetched from the assets URL when there is one, with exactly that request sent |
| ClientUpdater.RecordVersion | src/ClientUpdater.cs:181-182 | The record file is left alone without a normalised version, rewritten with `Save`'s text for a non-blank one, and a blank one is rejected |
| ClientUpdater.Conclude | src/ClientUpdater.cs:163-184 | Only the configuration files and the record change; backups are gone; the result carries the synced configuration or the caller's and the fallback-chain values; the record holds what the result reports; the only modelled failure is a blank version, leaving the record alone |
| ClientUpdater.CompletedUpdateReports | src/ClientUpdater.cs:163-184 | A completed update returns the configuration the launcher URL served (or the caller's) and the version and signature the fallback chain picks |
| ClientUpdater.CompletedUpdateRecords | src/ClientUpdater.cs:181-182 | A completed update with a normalised version saved exactly the record it reports; without one the record file is untouched |
| ClientUpdater.UpdateTouchesOnlyConfigFiles | src/ClientUpdater.cs:280-320 | Outside the base and client configuration paths, the update leaves every configuration file as it was |
| ClientUpdater.UpdatedRecordLoadsBack | src/ClientUpdater.cs:164-182 | The record a completed update writes loads back as the version and signature it reports |
| ClientUpdater.RecordedSignatureIsRemote | src/ClientUpdater.cs:175-179 | The signature a completed update reports is the remote signature the planner sees on the same server |
| ClientUpdater.UpdatedClientIsUpToDate | src/ClientUpdater.cs:164-184 | Planning again after a completed update, with the record it wrote, finds nothing to do when the synced configuration names no other version |
| Archive.Segments | src/ClientUpdater.cs:201 | Splitting with `RemoveEmptyEntries` gives non-empty parts without separators |
| Archive.SegmentsOfRun | src/ClientUpdater.cs:201 | A non-empty name without separators is its own single part |
| Archive.SegmentsSplitAtSeparator | src/ClientUpdater.cs:201 | The parts of a name with a separator in it are the parts before it followed by the parts after it, so runs of separators add no empty parts |
| Archive.SegmentsCoverPath | src/ClientUpdater.cs:201 | The parts, concatenated, are exactly the path's non-separator characters in order |
| Archive.AlreadyPresent | src/ClientUpdater.cs:190-195 | The set contains a name (ignoring case) iff it is a preserved folder that exists |
| Archive.EntriesToExtract | src/ClientUpdater.cs:198-205 | An entry is kept iff it is in the archive and not skipped; nothing skipped means all kept |
| Archive.SkippedIffPreserved | src/ClientUpdater.cs:14 | An entry is skipped iff its first segment names, ignoring case, a preserved folder that already exists |
| Archive.KeptEntries | src/ClientUpdater.cs:190-205 | Exactly the entries outside an existing preserved folder are extracted |
| Archive.TopLevelFolders | src/ClientUpdater.cs:261-278 | The folders are exactly the first segments (folded) of entries with two or more segments or single-segment directory entries |
| Archive.ReadSizes | src/ClientUpdater.cs:207-243 | Every read is non-empty and the reads together never exceed the declared total; without directory entries they add up to it |
| Archive.ReadSizesOfEntry | src/ClientUpdater.cs:225-253 | A directory entry is not read; a file entry is read chunk by chunk, in order |
| Archive.ReadSizesOfConcat | src/ClientUpdater.cs:214-253 | The entries are read one after another in archive order |
| Archive.PercentagesClimb | src/ClientUpdater.cs:244-247 | The percentage after each read never decreases and stays within 0..100 |
| Archive.ChangesStrictlyIncrease | src/ClientUpdater.cs:248-252 | Reporting only changes turns a non-decreasing sequence into a strictly increasing one holding every value but the start, ending at the last value |
| Archive.ReportChangesClimbTo100 | src/ClientUpdater.cs:248-258 | The reports climb strictly within 0..100, end at 100 and hold every percentage plus 100 |
| Archive.ReportsClimbTo100 | src/ClientUpdater.cs:207-258 | The same for reads of a total; a zero total reports only 100 |
| Archive.ExtractionReports | src/ClientUpdater.cs:207-258 | Extraction reports climb strictly within 0..100 and end at 100, just 100 when there is nothing to read |
| Archive.ExtractZip | src/ClientUpdater.cs:187-258 | Exactly the entries outside an existing preserved folder are extracted; the reports climb strictly within 0..100 to 100, just 100 for no bytes |
| Archive.ExtractsSingleEntry | src/ClientUpdater.cs:199-205 | A single entry is extracted iff it is not under an existing preserved folder |
| Archive.ExtractsInArchiveOrder | src/ClientUpdater.cs:199-205 | The extracted entries of two archive parts are those of the first part followed by those of the second |
| Archive.ExtractZipReportValues | src/ClientUpdater.cs:207-258 | With bytes to read, a value is reported iff it is 100 or the floor percentage of the bytes read after some read of the extracted entries |
| Archive.ReportsArePrefixPercentages | src/ClientUpdater.cs:241-258 | A value is reported iff it is 100 or the floor percentage of the bytes read after some read |
| Archive.ExtractionReportValues | src/ClientUpdater.cs:241-258 | For the extracted entries with bytes to read, a value is reported iff it is 100 or the floor percentage after some read |
| ConfigSync.BackupLauncherConfig | src/ClientUpdater.cs:322-337 | A backup exists iff the source is named, exists and can be copied; it holds the source's text and nothing else changes |
| ConfigSync.RestoreLauncherConfig | src/ClientUpdater.cs:339-355 | An existing backup is copied over a writable destination; otherwise nothing changes |
| ConfigSync.CleanupLauncherConfigBackup | src/ClientUpdater.cs:357-369 | The backup, if any, is removed and nothing else changes |
| ConfigSync.WriteAndParse | src/ClientUpdater.cs:295-308 | The text is written to the base path and, when it is another file, to the client path; the block returns iff fetch, writes and parse succeed; nothing else is written |
| ConfigSync.SyncLauncherConfig | src/ClientUpdater.cs:280-320 | No URL changes nothing; backups never survive; only the two configuration paths change; the parsed configuration on success, the caller's on failure |
| ConfigSync.SyncWritesBothPaths | src/ClientUpdater.cs:295-308 | A successful sync leaves exactly the old files with the downloaded text at the base path, and at the client path when it is another file |
| ConfigSync.SyncFailureRestores | src/ClientUpdater.cs:309-314 | A failed sync puts back each file it backed up; a file it could not back up keeps what was written to it |
| ConfigSync.FailedFetchChangesNothing | src/ClientUpdater.cs:290-319 | A sync whose fetch fails (or whose base file cannot be written) leaves every file as it was |
| ClientVersionStore.Load | src/ClientVersionStore.cs:18-96 | A missing, unreadable or empty file gives no record; a readable file gives one iff its first line is not blank; any record has a non-empty trimmed normalised version, a raw version only when it normalises to it, and no empty signature |
| ClientVersionStore.ParseLines | src/ClientVersionStore.cs:26-86 | No record iff there are no lines or the first line is blank, whatever the layout; any record is well formed |
| ClientVersionStore.ParseOneLine | src/ClientVersionStore.cs:33-43 | A one-line file holds just the normalised version, trimmed; a blank line gives no record |
| ClientVersionStore.ParseTwoLines | src/ClientVersionStore.cs:33-86 | For any two lines, trimmed: a blank first line gives no record; raw + normalised iff the second is not blank and the first normalises to it; legacy normalised + signature otherwise, with no signature for a blank second line |
| ClientVersionStore.ParseSeveralLines | src/ClientVersionStore.cs:33-86 | For two or more lines as they are in the file: a blank first line gives no record; the new layout needs a non-blank second line the trimmed first normalises to, and takes a non-blank third line as the signature; the legacy layout takes a non-blank third line, else a non-blank second line, else none |
| ClientVersionStore.ParseThreeLines | src/ClientVersionStore.cs:46-79 | Three lines are raw + normalised + signature iff the first normalises to the second, else the third line is the legacy signature |
| ClientVersionStore.ParseLongerFile | src/ClientVersionStore.cs:46-79 | With three or more lines only the first three count; a blank third line means no signature in the new layout and the second line as signature in the legacy one |
| ClientVersionStore.SaveLines | src/ClientVersionStore.cs:100-120 | Rejected iff the normalised version is null or blank; otherwise one to three lines |
| ClientVersionStore.Save | src/ClientVersionStore.cs:98-123 | Rejected iff the normalised version is null or blank |
| ClientVersionStore.ReadSavedLines | src/ClientVersionStore.cs:108-122 | The file `Save` writes reads back as the lines it built |
| ClientVersionStore.LoadSaveRoundTrip | src/ClientVersionStore.cs:46-68 | A non-blank raw version that normalises to the normalised one loads back exactly, an empty signature as null |
| ClientVersionStore.LoadSaveMismatchedRaw | src/ClientVersionStore.cs:69-79 | A raw version that does not normalise to the normalised one loads back in the legacy layout: the raw version becomes the normalised one and the signature, or without one the normalised version, becomes the signature |
| ClientVersionStore.LoadSaveWithoutRaw | src/ClientVersionStore.cs:108-117 | Without a raw version the record loads back without one, except when the signature equals the normalisation of the normalised version, which is misread as the new layout |
| ClientVersionStore.SaveLoadedRecord | src/ClientVersionStore.cs:98-123 | Saving any record `Load` returned and loading it again gives the same record, outside that ambiguous case |
| TextLines.ReadAllLines | src/ClientVersionStore.cs:25 | No line holds a break; the lines are empty iff the text is |
| TextLines.ReadAllLinesInvertsWriteAllLines | src/ClientVersionStore.cs:122 | Lines without breaks written by `WriteAllLines` read back unchanged |
| DotNetText.TrimIsBlankPadded | src/ClientVersionStore.cs:35 | `Trim` removes only leading and trailing white space |
| DotNetText.TrimEmptyIffBlank | src/ClientVersionStore.cs:41-42 | A line trims to empty iff it is blank |
| DotNetText.TrimIdempotent | src/ClientVersionStore.cs:35 | Trimming twice is trimming once |
| DownloadManager.DownloadFile | src/DownloadManager.cs:21-81 | Argument errors send nothing; the first request resumes from the `.part` length; a second, unranged request is sent iff the first got 416 or a 200 to a resume; on success the destination is the kept prefix plus the final body and the `.part` file is gone; an interrupted body stays in the `.part` file after the kept prefix (none after a restart) with the reports for its chunks; any other failure reports nothing and changes no file, except that a 416 deletes the `.part` file |
| DownloadManager.Receive | src/DownloadManager.cs:51-80 | A non-success status writes nothing; a completed body is moved over the destination; an interrupted one stays in the `.part` file after the kept prefix, or alone from byte 0 without one, with one report per chunk received |
| DownloadManager.DownloadRequestsAreGets | src/DownloadManager.cs:121-127 | Every download request is a GET of the URI whose range, if any, is open-ended and starts past byte 0 |
| DownloadManager.ProgressReports | src/DownloadManager.cs:52-75 | One report per chunk, byte counts strictly increasing from the offset to the offset plus the body, the total as declared plus the offset, a percentage only for a positive total |
| DownloadManager.FirstNonEmpty | src/DownloadManager.cs:162-174 | The first non-empty value of a header, null iff all are null or empty |
| DownloadManager.GetHeaderValue | src/DownloadManager.cs:162-174 | Null iff the header is absent or all its values are null or empty; otherwise the first non-empty one of its values: every value before it is null or empty |
| DownloadManager.ExtractSignature | src/DownloadManager.cs:150-160 | A non-empty ETag wins; otherwise there is a signature iff Last-Modified or a length is present; never empty |
| DownloadManager.SignatureWithoutLength | src/DownloadManager.cs:155-158 | Without an ETag or a length, the signature is `null:` followed by the non-empty Last-Modified value |
| DownloadManager.ProbeSignature | src/DownloadManager.cs:128-148 | A failed or unsuccessful `bytes=0-0` probe gives no signature; a successful one gives the signature of its headers |
| DownloadManager.SignatureEncodesLength | src/DownloadManager.cs:156-158 | A header-derived signature's text before its first colon parses back as the length, and the rest is Last-Modified |
| DownloadManager.FetchRemoteSignature | src/DownloadManager.cs:83-106 | A null URI sends nothing; a failed HEAD, 404 or 405 gives no signature; a successful HEAD gives its signature; exactly the other failure statuses fall back to the `bytes=0-0` probe, whose signature is the result |
| Int64Text.LongToStringRoundTrip | src/DownloadManager.cs:176-184 | The decimal text of a 64-bit length parses back to it |
| Int64Text.TryParseLong | src/DownloadManager.cs:181-183 | `long.TryParse`: no text or text without a digit fails; a bare run of digits reads as its decimal value iff that fits in 64 bits; every result is a 64-bit value |
| DownloadManager.TryGetContentLength | src/DownloadManager.cs:176-184 | No non-empty Content-Length value, no length; a first non-empty value without a digit gives none; any length is a 64-bit value under a present header |
| DownloadManager.ContentLengthOfLongText | src/DownloadManager.cs:176-184 | A first non-empty Content-Length value that is a 64-bit number's decimal text gives that number |
| ResumeScenarios.ResumeMatchesSinglePass | src/DownloadManager.cs:31-80 | Against a server holding one resource, resuming from any prefix in the `.part` file yields the whole resource, whether or not ranges are honoured |
| ResumeScenarios.SinglePassWhenResuming | src/DownloadManager.cs:35-43 | A 206 appends the rest to the prefix, and a 416 for a complete prefix restarts from scratch |

## Left out

- The launcher's path resolution (`LauncherUtils.GetLauncherPath`) and URI parsing: paths and URLs are given strings; a malformed URL's `UriFormatException` is not modelled.
- Exceptions from `NormalizeVersion` inside `Load` are not modelled: the codec is total.
- Case-insensitive comparison folds ASCII letters only; the invariant culture's full case mapping is not modelled.
- Text encodings, byte-order marks and `StreamReader` decoding: files hold `char` sequences.
- `Directory.CreateDirectory`, read-only attribute clearing, and failures of delete, copy or extraction I/O other than the ones the model names (unreadable archive, unreadable or unwritable configuration paths).
- Write failures of the record file (`File.WriteAllLines` in `Save`) and of the `.part` file stream (opening or writing it while downloading): the model's writes of these files always succeed.
- The deletion loop's folders are matched as top-level names of the client folder; a replace-folder name holding a nested path is not modelled.
- The client folder is modelled by its top-level folder names and package files, not by the extracted file contents.
- The launcher-configuration download (`GetStringAsync`) is modelled by its outcome, a document or null, not as a request to the server.
- The second signature fetch in `ExecuteUpdateAsync` is not wrapped in a `try` in the source; the model uses `FetchRemoteSignature`, which never throws.
- File maps use exact keys, while the real file system may compare paths ignoring case.
- `SendAsync` transport details, `Content` being null, cancellation tokens and `Task.Run`: a reply is a response or a failure.
- IEEE double rounding: download percentages are exact reals and extraction percentages exact floors.
- 64-bit overflow of byte counters is not modelled; counts are unbounded.
- The backup helpers and `ExtractZip` copies in `src/MainWindow.xaml.cs`, the splash screen, the UI and `BalrogLauncher/`.
- ClientUpdater.ExecuteUpdate: its contract covers the guards and the first request; the deletion, configuration and completion properties are stated by the lemmas named in the table.
- DownloadManager.DownloadFile: the request-shape property is stated by `DownloadRequestsAreGets` instead of the function's own contract.
- Archive.ExtractZip: the values it reports and the archive order of what it extracts are stated by `ExtractZipReportValues` and `ExtractsInArchiveOrder` instead of the function's own contract.
- Int64Text.TryParseLong: its contract states bare digit runs, text without a digit and, through `LongToStringRoundTrip`, every `long`'s own text; the white space and sign handling of `NumberStyles.Integer` are in its definition only.
- Archive.Segments: where the split cuts is stated by `SegmentsOfRun` and `SegmentsSplitAtSeparator` instead of the function's own contract.

=== FILE: archive.dfy ===
/** The archive side of `ClientUpdater`: entry paths split into segments, the
    top-level folders of an archive (`GetTopLevelFolders`), the entries
    `ExtractZip` skips, and the percentages it reports while extracting. */
module Archive {
  import opened Nullable
  import opened DotNetText
  import opened Http

  /** A `ZipArchiveEntry`: its full path, its file name (empty for a directory
      entry), and the chunks its decompressed stream returns. */
  datatype ZipEntry = ZipEntry(fullName: string, name: string, chunks: seq<Chunk>)

  /** `ZipArchiveEntry.Length`, the decompressed size. */
  function Length(entry: ZipEntry): nat {
    |Flatten(entry.chunks)|
  }

  /** The separators entry paths are split on. */
  predicate IsSeparator(c: char) {
    c == '/' || c == '\\'
  }

  predicate HasNoSeparator(s: string) {
    forall i :: 0 <= i < |s| ==> !IsSeparator(s[i])
  }

  /** The length of the run of non-separators `s` starts with. */
  function SegmentEnd(s: string): (n: nat)
    ensures n <= |s|
    ensures forall i :: 0 <= i < n ==> !IsSeparator(s[i])
    ensures n < |s| ==> IsSeparator(s[n])
    ensures s != [] && !IsSeparator(s[0]) ==> n > 0
  {
    if s == [] || IsSeparator(s[0]) then 0 else 1 + SegmentEnd(s[1..])
  }

  /** `s.Split(new[] { '/', '\\' }, StringSplitOptions.RemoveEmptyEntries)`. */
  function Segments(s: string): (parts: seq<string>)
    ensures forall i :: 0 <= i < |parts| ==> parts[i] != [] && HasNoSeparator(parts[i])
    decreases |s|
  {
    if s == [] then []
    else if IsSeparator(s[0]) then Segments(s[1..])
    else
      var n := SegmentEnd(s);
      assert HasNoSeparator(s[..n]);
      [s[..n]] + Segments(s[n..])
  }

  /** `s` with every separator removed. */
  function WithoutSeparators(s: string): string {
    if s == [] then [] else (if IsSeparator(s[0]) then [] else [s[0]]) + WithoutSeparators(s[1..])
  }

  function Concat(parts: seq<string>): string {
    if parts == [] then [] else parts[0] + Concat(parts[1..])
  }

  lemma {:induction false} WithoutSeparatorsOfSplit(s: string, n: nat)
    requires n <= |s|
    requires forall i :: 0 <= i < n ==> !IsSeparator(s[i])
    ensures WithoutSeparators(s) == s[..n] + WithoutSeparators(s[n..])
  {
    if n > 0 {
      WithoutSeparatorsOfSplit(s[1..], n - 1);
      assert s[1..][n - 1..] == s[n..];
      assert [s[0]] + s[1..][..n - 1] == s[..n];
    }
  }

  /** The segments are exactly the characters of the path that are not
      separators, in order, cut wherever a separator stood. */
  lemma {:induction false} SegmentsCoverPath(s: string)
    ensures Concat(Segments(s)) == WithoutSeparators(s)
    decreases |s|
  {
    if s == [] {
    } else if IsSeparator(s[0]) {
      SegmentsCoverPath(s[1..]);
    } else {
      var n := SegmentEnd(s);
      SegmentsCoverPath(s[n..]);
      WithoutSeparatorsOfSplit(s, n);
      assert Segments(s) == [s[..n]] + Segments(s[n..]);
      assert Segments(s)[1..] == Segments(s[n..]);
    }
  }

  /** The run of non-separators ends at the first separator, wherever it is found. */
  lemma SegmentEndAt(s: string, m: nat)
    requires m <= |s|
    requires forall i :: 0 <= i < m ==> !IsSeparator(s[i])
    requires m < |s| ==> IsSeparator(s[m])
    ensures SegmentEnd(s) == m
  {
  }

  /** A non-empty run without separators is one segment. */
  lemma SegmentsOfRun(a: string)
    requires a != [] && HasNoSeparator(a)
    ensures Segments(a) == [a]
  {
    SegmentEndAt(a, |a|);
    assert a[..|a|] == a && a[|a|..] == [];
  }

  /** Splitting cuts at every separator: the segments of `a`, a separator and `b`
      are the segments of `a` followed by those of `b`. */
  lemma {:induction false} SegmentsSplitAtSeparator(a: string, c: char, b: string)
    requires IsSeparator(c)
    ensures Segments(a + [c] + b) == Segments(a) + Segments(b)
    decreases |a|
  {
    var s := a + [c] + b;
    if a == [] {
      assert s[1..] == b;
    } else if IsSeparator(a[0]) {
      SegmentsSplitAtSeparator(a[1..], c, b);
      assert s[1..] == a[1..] + [c] + b;
    } else {
      var m := SegmentEnd(a);
      SegmentEndAt(s, m);
      SegmentsSplitAtSeparator(a[m..], c, b);
      assert s[..m] == a[..m];
      assert s[m..] == a[m..] + [c] + b;
    }
  }

  /** The first segment of a path, null when it has none. */
  function FirstSegment(s: string): Option<string> {
    var parts := Segments(s);
    if parts == [] then Null else Some(parts[0])
  }

  /** The folders `ExtractZip` never overwrites when they already exist. */
  const PreserveFolders: set<string> := {"conf", "characterdata"}

  /** Whether the case-insensitive set `keys` (holding folded names) contains `name`. */
  predicate ContainsIgnoringCase(keys: set<string>, name: string) {
    Fold(name) in keys
  }

  /** The `alreadyPresent` set: the preserved folders that exist in the client
      directory, whose top-level folder names are `existingFolders` (folded). */
  function AlreadyPresent(existingFolders: set<string>): (present: set<string>)
    ensures forall name :: ContainsIgnoringCase(present, name) <==>
              exists p :: p in PreserveFolders && EqualsIgnoreCase(name, p) && Fold(p) in existingFolders
  {
    set p | p in PreserveFolders && Fold(p) in existingFolders :: Fold(p)
  }

  /** An entry under a preserved folder that already exists is not extracted. */
  predicate IsSkipped(entry: ZipEntry, alreadyPresent: set<string>) {
    var first := FirstSegment(entry.fullName);
    first.Some? && ContainsIgnoringCase(alreadyPresent, first.value)
  }

  /** The first loop of `ExtractZip`: the entries to extract, in archive order. */
  function EntriesToExtract(entries: seq<ZipEntry>, alreadyPresent: set<string>): (kept: seq<ZipEntry>)
    ensures |kept| <= |entries|
    ensures forall e :: e in kept <==> e in entries && !IsSkipped(e, alreadyPresent)
    ensures (forall i :: 0 <= i < |entries| ==> !IsSkipped(entries[i], alreadyPresent)) ==> kept == entries
  {
    if entries == [] then []
    else
      var rest := EntriesToExtract(entries[1..], alreadyPresent);
      if IsSkipped(entries[0], alreadyPresent) then rest else [entries[0]] + rest
  }

  /** An entry adds its first segment to the archive's top-level folders when it
      has at least two segments, or is a single-segment directory entry. */
  predicate IsFolderEntry(entry: ZipEntry) {
    var parts := Segments(entry.fullName);
    |parts| >= 2 || (|parts| == 1 && entry.name == "")
  }

  /** The key a folder entry's first segment has in the case-insensitive set. */
  function FolderKey(entry: ZipEntry): string
    requires IsFolderEntry(entry)
  {
    Fold(Segments(entry.fullName)[0])
  }

  /** `GetTopLevelFolders`, as the set of folded names. */
  function TopLevelFolders(entries: seq<ZipEntry>): (folders: set<string>)
    ensures forall i :: 0 <= i < |entries| && IsFolderEntry(entries[i]) ==> FolderKey(entries[i]) in folders
    ensures forall key :: key in folders ==>
              exists i :: 0 <= i < |entries| && IsFolderEntry(entries[i]) && FolderKey(entries[i]) == key
  {
    if entries == [] then {}
    else
      var rest := TopLevelFolders(entries[..|entries| - 1]);
      var last := entries[|entries| - 1];
      assert forall i :: 0 <= i < |entries| - 1 ==> entries[..|entries| - 1][i] == entries[i];
      if IsFolderEntry(last) then rest + {FolderKey(last)} else rest
  }

  function Sum(xs: seq<nat>): nat {
    if xs == [] then 0 else xs[0] + Sum(xs[1..])
  }

  /** `totalBytes`: the declared sizes of all entries to extract. */
  function TotalLength(entries: seq<ZipEntry>): nat {
    if entries == [] then 0 else Length(entries[0]) + TotalLength(entries[1..])
  }

  function ChunkSizes(chunks: seq<Chunk>): (sizes: seq<nat>)
    ensures |sizes| == |chunks|
    ensures forall i :: 0 <= i < |sizes| ==> sizes[i] == |chunks[i]| > 0
    ensures Sum(sizes) == |Flatten(chunks)|
  {
    if chunks == [] then [] else [|chunks[0]|] + ChunkSizes(chunks[1..])
  }

  /** The byte counts of the successive reads `ExtractZip` makes: the chunks of
      every file entry; directory entries are created, not read. */
  function ReadSizes(entries: seq<ZipEntry>): (sizes: seq<nat>)
    ensures forall i :: 0 <= i < |sizes| ==> sizes[i] > 0
    ensures Sum(sizes) <= TotalLength(entries)
    // without directory entries every declared byte is read
    ensures (forall i :: 0 <= i < |entries| ==> entries[i].name != "") ==> Sum(sizes) == TotalLength(entries)
  {
    if entries == [] then []
    else
      var here := EntryReads(entries[0]);
      SumOfConcat(here, ReadSizes(entries[1..]));
      here + ReadSizes(entries[1..])
  }

  /** The reads of one entry: one per chunk, none for a directory entry. */
  function EntryReads(entry: ZipEntry): seq<nat> {
    if entry.name == "" then [] else ChunkSizes(entry.chunks)
  }

  /** The pieces `f` gives for each element, one after the other. */
  function ConcatMap<X>(xs: seq<X>, f: X -> seq<nat>): seq<nat> {
    if xs == [] then [] else f(xs[0]) + ConcatMap(xs[1..], f)
  }

  lemma {:induction false} ConcatMapOfConcat<X>(a: seq<X>, b: seq<X>, f: X -> seq<nat>)
    ensures ConcatMap(a + b, f) == ConcatMap(a, f) + ConcatMap(b, f)
  {
    if a == [] {
      assert a + b == b;
    } else {
      var ab := a + b;
      assert ab[0] == a[0];
      assert ab[1..] == a[1..] + b;
      ConcatMapOfConcat(a[1..], b, f);
      calc {
        ConcatMap(ab, f);
        f(a[0]) + ConcatMap(a[1..] + b, f);
        f(a[0]) + (ConcatMap(a[1..], f) + ConcatMap(b, f));
        (f(a[0]) + ConcatMap(a[1..], f)) + ConcatMap(b, f);
      }
    }
  }

  lemma {:induction false} ReadSizesAreEntryReads(entries: seq<ZipEntry>)
    ensures ReadSizes(entries) == ConcatMap(entries, EntryReads)
  {
    if entries != [] {
      ReadSizesAreEntryReads(entries[1..]);
    }
  }

  /** One entry is read chunk by chunk, unless it is a directory entry. */
  lemma ReadSizesOfEntry(entry: ZipEntry)
    ensures ReadSizes([entry]) == if entry.name == "" then [] else ChunkSizes(entry.chunks)
  {
    assert [entry][1..] == [];
  }

  /** The entries are read one after the other, in order. */
  lemma ReadSizesOfConcat(a: seq<ZipEntry>, b: seq<ZipEntry>)
    ensures ReadSizes(a + b) == ReadSizes(a) + ReadSizes(b)
  {
    ReadSizesAreEntryReads(a + b);
    ReadSizesAreEntryReads(a);
    ReadSizesAreEntryReads(b);
    ConcatMapOfConcat(a, b, EntryReads);
  }

  lemma {:induction false} SumOfConcat(a: seq<nat>, b: seq<nat>)
    ensures Sum(a + b) == Sum(a) + Sum(b)
  {
    if a == [] {
      assert a + b == b;
    } else {
      SumOfConcat(a[1..], b);
      assert (a + b)[1..] == a[1..] + b;
    }
  }

  /** The integer percentage `(int)(processed * 100.0 / total)`, exact. */
  function Percent(processed: nat, total: nat): nat
    requires total > 0
  {
    processed * 100 / total
  }

  lemma PercentMonotone(a: nat, b: nat, total: nat)
    requires total > 0 && a <= b
    ensures Percent(a, total) <= Percent(b, total)
  {
    DivMonotone(a * 100, b * 100, total);
  }

  lemma DivMonotone(x: nat, y: nat, d: nat)
    requires d > 0 && x <= y
    ensures x / d <= y / d
  {
    var qx, qy := x / d, y / d;
    assert d * qx <= x;
    assert y < d * qy + d;
    if qy < qx {
      MulMonotone(d, qy + 1, qx);
      assert false;
    }
  }

  lemma MulMonotone(d: nat, a: nat, b: nat)
    requires a <= b
    ensures d * a <= d * b
  {
  }

  lemma PercentAtMost100(a: nat, total: nat)
    requires total > 0
    ensures a <= total ==> Percent(a, total) <= 100
  {
    if a <= total {
      PercentMonotone(a, total, total);
    }
  }

  /** The percentage after each read: after read `i` the running count
      `processedBytes` is the sum of the first `i + 1` reads. */
  function Percentages(counts: seq<nat>, total: nat): seq<int>
    requires total > 0
  {
    seq(|counts|, i requires 0 <= i < |counts| => Percent(Sum(counts[..i + 1]), total))
  }

  /** The running count never decreases. */
  lemma PrefixSumMonotone(counts: seq<nat>, m: nat, n: nat)
    requires m <= n <= |counts|
    ensures Sum(counts[..m]) <= Sum(counts[..n]) <= Sum(counts)
  {
    assert counts[..n] == counts[..m] + counts[m..n];
    SumOfConcat(counts[..m], counts[m..n]);
    assert counts == counts[..n] + counts[n..];
    SumOfConcat(counts[..n], counts[n..]);
  }

  /** Two percentages in read order. */
  lemma PercentagesOrdered(counts: seq<nat>, total: nat, i: nat, j: nat)
    requires total > 0 && i < j < |counts|
    ensures Percentages(counts, total)[i] <= Percentages(counts, total)[j]
  {
    PrefixSumMonotone(counts, i + 1, j + 1);
    PercentMonotone(Sum(counts[..i + 1]), Sum(counts[..j + 1]), total);
  }

  /** A percentage of reads that fit in the total. */
  lemma PercentageAtMost100(counts: seq<nat>, total: nat, i: nat)
    requires total > 0 && Sum(counts) <= total && i < |counts|
    ensures Percentages(counts, total)[i] <= 100
  {
    PrefixSumMonotone(counts, i + 1, |counts|);
    PercentAtMost100(Sum(counts[..i + 1]), total);
  }

  /** The percentages start at 0 or above, never decrease, and stay within 100
      when the reads fit in the total. */
  lemma PercentagesClimb(counts: seq<nat>, total: nat)
    requires total > 0 && Sum(counts) <= total
    ensures ClimbsFrom(Percentages(counts, total), 0)
    ensures forall i :: 0 <= i < |counts| ==> Percentages(counts, total)[i] <= 100
  {
    forall i, j | 0 <= i < j < |counts| {
      PercentagesOrdered(counts, total, i, j);
    }
    forall i | 0 <= i < |counts| {
      PercentageAtMost100(counts, total, i);
    }
  }

  /** The values of a sequence, as a set. */
  function Elements(s: seq<int>): set<int> {
    if s == [] then {} else {s[0]} + Elements(s[1..])
  }

  lemma {:induction false} ElementsAbove(s: seq<int>, bound: int)
    requires forall i :: 0 <= i < |s| ==> bound < s[i]
    ensures bound !in Elements(s)
  {
    if s != [] {
      ElementsAbove(s[1..], bound);
    }
  }

  lemma {:induction false} ElementsAreMembers(s: seq<int>, x: int)
    ensures x in Elements(s) <==> x in s
  {
    if s != [] {
      ElementsAreMembers(s[1..], x);
      assert x in s <==> x == s[0] || x in s[1..];
    }
  }

  lemma {:induction false} ElementsOfAppend(s: seq<int>, x: int)
    ensures Elements(s + [x]) == Elements(s) + {x}
  {
    if s == [] {
      assert s + [x] == [x];
    } else {
      ElementsOfAppend(s[1..], x);
      assert (s + [x])[1..] == s[1..] + [x];
    }
  }

  /** Values that never go below `last` and never decrease. */
  predicate ClimbsFrom(values: seq<int>, last: int) {
    && (forall i :: 0 <= i < |values| ==> last <= values[i])
    && (forall i, j :: 0 <= i < j < |values| ==> values[i] <= values[j])
  }

  /** The reporting rule of the read loop: a value is reported when it differs
      from the last one reported, which starts as `last`. */
  function Changes(values: seq<int>, last: int): seq<int> {
    if values == [] then []
    else if values[0] != last then [values[0]] + Changes(values[1..], values[0])
    else Changes(values[1..], last)
  }

  /** Reporting only changes keeps every report above `last`. */
  lemma {:induction false} ChangesAbove(values: seq<int>, last: int)
    requires ClimbsFrom(values, last)
    ensures forall i :: 0 <= i < |Changes(values, last)| ==> last < Changes(values, last)[i]
  {
    if values != [] {
      var current := values[0];
      var rest := values[1..];
      assert forall i :: 0 <= i < |rest| ==> rest[i] == values[i + 1];
      if current != last {
        assert ClimbsFrom(rest, current);
        ChangesAbove(rest, current);
        assert Changes(values, last) == [current] + Changes(rest, current);
      } else {
        assert ClimbsFrom(rest, last);
        ChangesAbove(rest, last);
        assert Changes(values, last) == Changes(rest, last);
      }
    }
  }

  /** Reporting only changes turns climbing values into strictly increasing
      reports above `last`. */
  lemma {:induction false} ChangesAreIncreasing(values: seq<int>, last: int)
    requires ClimbsFrom(values, last)
    ensures forall i :: 0 <= i < |Changes(values, last)| ==> last < Changes(values, last)[i]
    ensures forall i, j :: 0 <= i < j < |Changes(values, last)| ==> Changes(values, last)[i] < Changes(values, last)[j]
  {
    ChangesAbove(values, last);
    if values != [] {
      var current := values[0];
      var rest := values[1..];
      assert forall i :: 0 <= i < |rest| ==> rest[i] == values[i + 1];
      if current != last {
        assert ClimbsFrom(rest, current);
        ChangesAreIncreasing(rest, current);
        var tail := Changes(rest, current);
        var rs := Changes(values, last);
        assert rs == [current] + tail;
        assert forall i :: 1 <= i < |rs| ==> rs[i] == tail[i - 1];
      } else {
        assert ClimbsFrom(rest, last);
        ChangesAreIncreasing(rest, last);
        assert Changes(values, last) == Changes(rest, last);
      }
    }
  }

  /** Every value but `last` is reported. */
  lemma {:induction false} ChangesElements(values: seq<int>, last: int)
    requires ClimbsFrom(values, last)
    ensures Elements(Changes(values, last)) == Elements(values) - {last}
  {
    if values != [] {
      var current := values[0];
      var rest := values[1..];
      assert forall i :: 0 <= i < |rest| ==> rest[i] == values[i + 1];
      if current != last {
        assert ClimbsFrom(rest, current);
        ChangesElements(rest, current);
        ElementsAbove(rest, last);
        assert Changes(values, last) == [current] + Changes(rest, current);
      } else {
        assert ClimbsFrom(rest, last);
        ChangesElements(rest, last);
      }
    }
  }

  /** The last report is the last value, unless that value was never new. */
  lemma {:induction false} ChangesEndWithLastValue(values: seq<int>, last: int)
    requires ClimbsFrom(values, last)
    ensures var rs := Changes(values, last);
      values != [] ==> if rs == [] then values[|values| - 1] == last else rs[|rs| - 1] == values[|values| - 1]
  {
    if values != [] {
      var current := values[0];
      var rest := values[1..];
      assert forall i :: 0 <= i < |rest| ==> rest[i] == values[i + 1];
      if current != last {
        assert ClimbsFrom(rest, current);
        ChangesEndWithLastValue(rest, current);
        assert Changes(values, last) == [current] + Changes(rest, current);
      } else {
        assert ClimbsFrom(rest, last);
        ChangesEndWithLastValue(rest, last);
      }
    }
  }

  /** Reports never exceed a bound the values respect. */
  lemma {:induction false} ChangesBounded(values: seq<int>, last: int, bound: int)
    requires forall i :: 0 <= i < |values| ==> values[i] <= bound
    ensures forall i :: 0 <= i < |Changes(values, last)| ==> Changes(values, last)[i] <= bound
  {
    if values != [] {
      var rest := values[1..];
      assert forall i :: 0 <= i < |rest| ==> rest[i] == values[i + 1];
      ChangesBounded(rest, values[0], bound);
      ChangesBounded(rest, last, bound);
    }
  }

  /** The three facts about `Changes` together. */
  lemma ChangesStrictlyIncrease(values: seq<int>, last: int)
    requires ClimbsFrom(values, last)
    ensures var rs := Changes(values, last);
      && (forall i :: 0 <= i < |rs| ==> last < rs[i])
      && (forall i, j :: 0 <= i < j < |rs| ==> rs[i] < rs[j])
      && Elements(rs) == Elements(values) - {last}
      && (values != [] ==> if rs == [] then values[|values| - 1] == last else rs[|rs| - 1] == values[|values| - 1])
  {
    ChangesAreIncreasing(values, last);
    ChangesElements(values, last);
    ChangesEndWithLastValue(values, last);
  }

  /** `ExtractZip`'s reports for reads of `counts` bytes out of `total`: the
      percentages that changed, starting from `lastProgress = -1` (none when the
      total is 0), then a final 100 when the last report was below 100. */
  function Reports(counts: seq<nat>, total: nat): seq<int>
    requires Sum(counts) <= total
  {
    ReportChanges(if total == 0 then [] else Percentages(counts, total))
  }

  /** The read loop's reports of `values` from `lastProgress = -1`, then the
      final 100 when the last report was below 100. */
  function ReportChanges(values: seq<int>): seq<int> {
    var steps := Changes(values, -1);
    if steps == [] || steps[|steps| - 1] < 100 then steps + [100] else steps
  }

  /** Strictly increasing values within 0..100. */
  predicate IsPercentClimb(rs: seq<int>) {
    && (forall i :: 0 <= i < |rs| ==> 0 <= rs[i] <= 100)
    && (forall i, j :: 0 <= i < j < |rs| ==> rs[i] < rs[j])
  }

  /** The final 100 keeps a climb below 100 climbing. */
  lemma AppendHundred(steps: seq<int>)
    requires IsPercentClimb(steps)
    requires steps == [] || steps[|steps| - 1] < 100
    ensures IsPercentClimb(steps + [100])
    ensures Elements(steps + [100]) == Elements(steps) + {100}
  {
    ElementsOfAppend(steps, 100);
    var rs := steps + [100];
    assert forall i :: 0 <= i < |steps| ==> rs[i] == steps[i];
  }

  /** A climb that already ends at 100 holds it. */
  lemma HoldsHundred(steps: seq<int>)
    requires steps != [] && steps[|steps| - 1] == 100
    ensures Elements(steps) == Elements(steps) + {100}
  {
    assert steps[|steps| - 1] in steps;
    ElementsAreMembers(steps, 100);
  }

  /** The read loop's reports of percentages within 0..100 that never decrease
      climb, and hold every one of them. */
  lemma PercentChanges(values: seq<int>)
    requires ClimbsFrom(values, 0)
    requires forall i :: 0 <= i < |values| ==> values[i] <= 100
    ensures IsPercentClimb(Changes(values, -1))
    ensures Elements(Changes(values, -1)) == Elements(values)
  {
    assert ClimbsFrom(values, -1);
    ChangesAreIncreasing(values, -1);
    ChangesElements(values, -1);
    ElementsAbove(values, -1);
    ChangesBounded(values, -1, 100);
  }

  /** Percentages within 0..100 that never decrease are reported as a strictly
      increasing sequence ending at 100, holding every one of them. */
  lemma ReportChangesClimbTo100(values: seq<int>)
    requires ClimbsFrom(values, 0)
    requires forall i :: 0 <= i < |values| ==> values[i] <= 100
    ensures var rs := ReportChanges(values);
      && rs != [] && rs[|rs| - 1] == 100
      && IsPercentClimb(rs)
      && Elements(rs) == Elements(values) + {100}
  {
    var steps := Changes(values, -1);
    PercentChanges(values);
    if steps == [] || steps[|steps| - 1] < 100 {
      AppendHundred(steps);
      assert ReportChanges(values) == steps + [100];
    } else {
      assert steps[|steps| - 1] <= 100;
      HoldsHundred(steps);
      assert ReportChanges(values) == steps;
    }
  }

  /** The reports climb strictly within 0..100, end at 100, are just that 100
      when there is nothing to read, and otherwise hold exactly the percentages
      reached after the reads, and 100. */
  lemma ReportsClimbTo100(counts: seq<nat>, total: nat)
    requires Sum(counts) <= total
    ensures var rs := Reports(counts, total);
      && rs != [] && rs[|rs| - 1] == 100
      && (forall i :: 0 <= i < |rs| ==> 0 <= rs[i] <= 100)
      && (forall i, j :: 0 <= i < j < |rs| ==> rs[i] < rs[j])
      && (total == 0 ==> rs == [100])
      && (total > 0 ==> Elements(rs) == Elements(Percentages(counts, total)) + {100})
  {
    if total > 0 {
      var values := Percentages(counts, total);
      PercentagesClimb(counts, total);
      ReportChangesClimbTo100(values);
    } else {
      ReportChangesClimbTo100([]);
    }
  }

  /** What `ExtractZip` does with an archive: the entries it extracts and the
      percentages it reports. */
  datatype Extraction = Extraction(kept: seq<ZipEntry>, reports: seq<int>)

  /** An entry lies under one of the preserved folders that already exist. */
  predicate UnderPreservedFolder(entry: ZipEntry, existingFolders: set<string>) {
    var first := FirstSegment(entry.fullName);
    first.Some? && exists p :: p in PreserveFolders && EqualsIgnoreCase(first.value, p) && Fold(p) in existingFolders
  }

  /** The `alreadyPresent` test skips exactly the entries under an existing preserved folder. */
  lemma SkippedIffPreserved(entry: ZipEntry, existingFolders: set<string>)
    ensures IsSkipped(entry, AlreadyPresent(existingFolders)) <==> UnderPreservedFolder(entry, existingFolders)
  {
    var first := FirstSegment(entry.fullName);
    if first.Some? {
      assert ContainsIgnoringCase(AlreadyPresent(existingFolders), first.value) <==>
             exists p :: p in PreserveFolders && EqualsIgnoreCase(first.value, p) && Fold(p) in existingFolders;
    }
  }

  /** The reports of extracting `kept`. */
  function ExtractionReports(kept: seq<ZipEntry>): (reports: seq<int>)
    ensures reports != [] && reports[|reports| - 1] == 100
    ensures forall i :: 0 <= i < |reports| ==> 0 <= reports[i] <= 100
    ensures forall i, j :: 0 <= i < j < |reports| ==> reports[i] < reports[j]
    ensures TotalLength(kept) == 0 ==> reports == [100]
  {
    ReportsClimbTo100(ReadSizes(kept), TotalLength(kept));
    Reports(ReadSizes(kept), TotalLength(kept))
  }

  /** With bytes to read, the reports are exactly 100 and the percentages of the
      total read after each read. */
  lemma ExtractionReportValues(kept: seq<ZipEntry>)
    requires TotalLength(kept) > 0
    ensures forall v :: v in ExtractionReports(kept) <==>
              v == 100 || exists k :: 1 <= k <= |ReadSizes(kept)| && v == Percent(Sum(ReadSizes(kept)[..k]), TotalLength(kept))
  {
    ReportsArePrefixPercentages(ReadSizes(kept), TotalLength(kept));
  }

  /** The entries the first loop keeps are those outside an existing preserved folder. */
  function KeptEntries(entries: seq<ZipEntry>, existingFolders: set<string>): (kept: seq<ZipEntry>)
    ensures forall e :: e in kept <==> e in entries && !UnderPreservedFolder(e, existingFolders)
  {
    var kept := EntriesToExtract(entries, AlreadyPresent(existingFolders));
    forall e | e in entries {
      SkippedIffPreserved(e, existingFolders);
    }
    kept
  }

  /** `ExtractZip`, given the archive's entries and the client directory's
      top-level folders (folded) as they are before extraction. */
  function ExtractZip(entries: seq<ZipEntry>, existingFolders: set<string>): (x: Extraction)
    // exactly the entries outside an existing preserved folder are extracted
    ensures forall e :: e in x.kept <==> e in entries && !UnderPreservedFolder(e, existingFolders)
    // the reports climb strictly, stay within 0..100 and end at 100
    ensures x.reports != [] && x.reports[|x.reports| - 1] == 100
    ensures forall i :: 0 <= i < |x.reports| ==> 0 <= x.reports[i] <= 100
    ensures forall i, j :: 0 <= i < j < |x.reports| ==> x.reports[i] < x.reports[j]
    // nothing but the final 100 when there are no bytes to extract
    ensures TotalLength(x.kept) == 0 ==> x.reports == [100]
  {
    var kept := KeptEntries(entries, existingFolders);
    Extraction(kept, ExtractionReports(kept))
  }

  /** With bytes to extract, `ExtractZip` reports exactly 100 and the percentage
      of the total read after each read of the extracted entries. */
  lemma ExtractZipReportValues(entries: seq<ZipEntry>, existingFolders: set<string>, x: Extraction)
    requires x == ExtractZip(entries, existingFolders)
    requires TotalLength(x.kept) > 0
    ensures forall v :: v in x.reports <==>
              v == 100 || exists k :: 1 <= k <= |ReadSizes(x.kept)| && v == Percent(Sum(ReadSizes(x.kept)[..k]), TotalLength(x.kept))
  {
    assert x.reports == ExtractionReports(x.kept);
    ExtractionReportValues(x.kept);
  }

  /** One entry is extracted unless it lies under an existing preserved folder. */
  lemma ExtractsSingleEntry(entry: ZipEntry, existingFolders: set<string>)
    ensures ExtractZip([entry], existingFolders).kept == if UnderPreservedFolder(entry, existingFolders) then [] else [entry]
  {
    SkippedIffPreserved(entry, existingFolders);
    assert [entry][1..] == [];
  }

  /** The kept entries are filtered from the archive in order. */
  lemma ExtractsInArchiveOrder(a: seq<ZipEntry>, b: seq<ZipEntry>, existingFolders: set<string>)
    ensures ExtractZip(a + b, existingFolders).kept == ExtractZip(a, existingFolders).kept + ExtractZip(b, existingFolders).kept
  {
    FilterOfConcat(a, b, AlreadyPresent(existingFolders));
  }

  lemma FilterOfConcat(a: seq<ZipEntry>, b: seq<ZipEntry>, alreadyPresent: set<string>)
    ensures EntriesToExtract(a + b, alreadyPresent) == EntriesToExtract(a, alreadyPresent) + EntriesToExtract(b, alreadyPresent)
  {
    var keep := (e: ZipEntry) => !IsSkipped(e, alreadyPresent);
    ExtractedAreFiltered(a + b, alreadyPresent);
    ExtractedAreFiltered(a, alreadyPresent);
    ExtractedAreFiltered(b, alreadyPresent);
    FilterOfConcatGeneric(a, b, keep);
  }

  /** The elements `keep` accepts, in order. */
  function Filter<X>(xs: seq<X>, keep: X -> bool): seq<X> {
    if xs == [] then [] else (if keep(xs[0]) then [xs[0]] else []) + Filter(xs[1..], keep)
  }

  lemma {:induction false} FilterOfConcatGeneric<X>(a: seq<X>, b: seq<X>, keep: X -> bool)
    ensures Filter(a + b, keep) == Filter(a, keep) + Filter(b, keep)
  {
    if a == [] {
      assert a + b == b;
    } else {
      var ab := a + b;
      var here := if keep(a[0]) then [a[0]] else [];
      assert ab[0] == a[0];
      assert ab[1..] == a[1..] + b;
      FilterOfConcatGeneric(a[1..], b, keep);
      calc {
        Filter(ab, keep);
        here + Filter(a[1..] + b, keep);
        here + (Filter(a[1..], keep) + Filter(b, keep));
        (here + Filter(a[1..], keep)) + Filter(b, keep);
      }
    }
  }

  lemma {:induction false} ExtractedAreFiltered(entries: seq<ZipEntry>, alreadyPresent: set<string>)
    ensures EntriesToExtract(entries, alreadyPresent) == Filter(entries, (e: ZipEntry) => !IsSkipped(e, alreadyPresent))
  {
    if entries != [] {
      ExtractedAreFiltered(entries[1..], alreadyPresent);
    }
  }

  /** The reports of `ExtractZip` are the final 100 together with exactly the
      percentages reached after some read. */
  lemma ReportsArePrefixPercentages(counts: seq<nat>, total: nat)
    requires total > 0 && Sum(counts) <= total
    ensures forall x :: x in Reports(counts, total) <==>
              x == 100 || exists k :: 1 <= k <= |counts| && x == Percent(Sum(counts[..k]), total)
  {
    forall x
      ensures x in Reports(counts, total) <==>
                x == 100 || exists k :: 1 <= k <= |counts| && x == Percent(Sum(counts[..k]), total)
    {
      ReportedValue(counts, total, x);
    }
  }

  /** One value: reported exactly when it is 100 or the percentage after some read. */
  lemma ReportedValue(counts: seq<nat>, total: nat, x: int)
    requires total > 0 && Sum(counts) <= total
    ensures x in Reports(counts, total) <==>
              x == 100 || exists k :: 1 <= k <= |counts| && x == Percent(Sum(counts[..k]), total)
  {
    ReportsAsElements(counts, total, x);
    PercentageValue(counts, total, x);
  }

  /** A value is one of the percentages exactly when it is the percentage after some read. */
  lemma PercentageValue(counts: seq<nat>, total: nat, x: int)
    requires total > 0
    ensures x in Percentages(counts, total) <==>
              exists k :: 1 <= k <= |counts| && x == Percent(Sum(counts[..k]), total)
  {
    var values := Percentages(counts, total);
    if x in values {
      var i :| 0 <= i < |values| && values[i] == x;
      assert x == Percent(Sum(counts[..i + 1]), total);
    }
    if exists k :: 1 <= k <= |counts| && x == Percent(Sum(counts[..k]), total) {
      var k :| 1 <= k <= |counts| && x == Percent(Sum(counts[..k]), total);
      assert values[k - 1] == x;
    }
  }

  /** A value is reported exactly when it is 100 or one of the percentages. */
  lemma ReportsAsElements(counts: seq<nat>, total: nat, x: int)
    requires total > 0 && Sum(counts) <= total
    ensures x in Reports(counts, total) <==> x == 100 || x in Percentages(counts, total)
  {
    ReportsClimbTo100(counts, total);
    ElementsAreMembers(Reports(counts, total), x);
    ElementsAreMembers(Percentages(counts, total), x);
  }
}

=== FILE: client_config.dfy ===
/** The remote launcher configuration, reduced to the fields the updater reads. */
module LauncherConfig {
  import opened Nullable

  /** One element of the `replaceFolderName` array. */
  datatype ReplaceFolderName = ReplaceFolderName(name: Option<string>)

  /** `ClientConfig` with the fields `ClientUpdater` reads, including `assetsUrl`.
      `replaceFolderName` is a JSON array that may itself be null or hold nulls. */
  datatype ClientConfig = ClientConfig(
    clientVersion: Option<string>,
    replaceFolders: bool,
    replaceFolderName: Option<seq<Option<ReplaceFolderName>>>,
    newClientUrl: Option<string>,
    assetsUrl: Option<string>,
    clientExecutable: Option<string>)

  /** What `JsonConvert.DeserializeObject<ClientConfig>` does with a document: it
      throws, returns null (the document `null`), or returns a configuration. */
  datatype ParseOutcome = Malformed | NullDocument | Parsed(config: ClientConfig)
}

=== FILE: client_updater.dfy ===
/** `ClientUpdater.ExecuteUpdateAsync`: carry out a plan by downloading the
    package, clearing the replace-folders, extracting, syncing the launcher
    configuration and recording the installed version. */
module ClientUpdater {
  import opened Nullable
  import opened DotNetText
  import opened Http
  import opened VersionCodec
  import opened LauncherConfig
  import opened ClientVersionStore
  import opened DownloadManager
  import opened Archive
  import opened ConfigSync
  import opened UpdatePlanner

  /** `ClientUpdateResult`. */
  datatype ClientUpdateResult = ClientUpdateResult(
    updatedConfig: ClientConfig,
    installedVersionRaw: Option<string>,
    installedVersionNormalized: Option<string>,
    assetsSignature: Option<string>)

  /** The exceptions `ExecuteUpdateAsync` lets through. */
  datatype UpdateError =
    | PlanIsNull                          // ArgumentNullException
    | DownloadUrlMissing                  // InvalidOperationException
    | DownloadFailed(cause: DownloadError)
    | ArchiveUnreadable                   // the package is not a ZIP archive
    | VersionRejected                     // Save's ArgumentException for a blank version

  /** The client folder as the updater sees it: files by path, the folded names of
      its top-level folders, the launcher configuration files (with their temporary
      backups), and the version record file. */
  datatype Installation = Installation(
    packages: FileMap,
    folders: set<string>,
    configs: TextFiles,
    versionFile: VersionFile)

  /** What the update depends on outside the client folder: the client folder's
      path, the server, how a package's bytes read as a ZIP archive, the launcher
      configuration URL, the document that URL serves (null when the request
      fails), how that document deserialises, and the configuration file paths. */
  datatype Environment = Environment(
    clientPath: string,
    server: Server,
    openArchive: Bytes -> Option<seq<ZipEntry>>,
    launcherConfigUrl: Option<string>,
    configDocument: Option<string>,
    parse: string -> ParseOutcome,
    sync: SyncSetting)

  /** What `ExecuteUpdateAsync` returned or threw, the client folder afterwards,
      the requests sent, the status messages and progress reported, the package
      downloaded, the entries extracted and the replace-folders deleted. */
  datatype Execution = Execution(
    result: Result<ClientUpdateResult, UpdateError>,
    after: Installation,
    sent: seq<Request>,
    statuses: seq<string>,
    downloadReports: seq<Progress>,
    extractionReports: seq<int>,
    package: Option<Bytes>,
    extracted: seq<ZipEntry>,
    deleted: set<string>)

  /** An execution that stopped before touching anything. */
  function Untouched(result: Result<ClientUpdateResult, UpdateError>, before: Installation): Execution {
    Execution(result, before, [], [], [], [], Null, [], {})
  }

  /** `Path.Combine(directory, name)` for a relative `name`: the name, under the
      directory when there is one. */
  function Combine(directory: string, name: string): (path: string)
    ensures directory == "" ==> path == name
    ensures directory != "" ==> |path| >= |directory| && path[..|directory|] == directory
    ensures |name| <= |path| && path[|path| - |name|..] == name
  {
    if directory == "" then name
    else if IsSeparator(directory[|directory| - 1]) then directory + name
    else directory + "\\" + name
  }

  /** The URL a full update or an assets update downloads. */
  function DownloadUrl(config: ClientConfig, mode: UpdateMode): Option<string> {
    if mode == Full then config.newClientUrl else config.assetsUrl
  }

  /** The package file a full update or an assets update downloads into. */
  function PackageName(mode: UpdateMode): string {
    if mode == Full then "client_package.zip" else "assets.zip"
  }

  /** The package's path in the client folder. */
  function PackagePath(env: Environment, mode: UpdateMode): string {
    Combine(env.clientPath, PackageName(mode))
  }

  /** The status message announcing the download. */
  function DownloadStatus(mode: UpdateMode): string {
    if mode == Full then "Atualizando client completo..." else "Baixando assets..."
  }

  const ExtractingStatus: string := "Extraindo arquivos..."

  /** The replace-folders only apply when enabled and listed. */
  predicate ShouldReplaceFolders(config: ClientConfig) {
    config.replaceFolders && config.replaceFolderName.Some?
  }

  /** An element of the replace-folder list the deletion loop does not skip outright:
      not null, and with a name that is not null or blank. */
  predicate NamesFolder(element: Option<ReplaceFolderName>) {
    element.Some? && !IsNullOrWhiteSpace(element.value.name)
  }

  function FolderOf(element: Option<ReplaceFolderName>): string
    requires NamesFolder(element)
  {
    element.value.name.value
  }

  /** In an assets update a replace-folder is only deleted when the archive brings it. */
  predicate InScope(name: string, mode: UpdateMode, archiveFolders: Option<set<string>>) {
    !(mode == Assets && archiveFolders.Some? && !ContainsIgnoringCase(archiveFolders.value, name))
  }

  /** The folded names the deletion loop over `names` tries to delete. */
  function FoldersToReplace(names: seq<Option<ReplaceFolderName>>, mode: UpdateMode,
                            archiveFolders: Option<set<string>>): set<string>
  {
    set i | 0 <= i < |names| && NamesFolder(names[i]) && InScope(FolderOf(names[i]), mode, archiveFolders)
      :: Fold(FolderOf(names[i]))
  }

  /** The replace-folder at index `i` of the list, when replacing is on. */
  predicate Listed(config: ClientConfig, i: int) {
    && ShouldReplaceFolders(config)
    && 0 <= i < |config.replaceFolderName.value|
    && NamesFolder(config.replaceFolderName.value[i])
  }

  /** The folded name of the listed replace-folder at index `i`. */
  function ListedKey(config: ClientConfig, i: int): string
    requires Listed(config, i)
  {
    Fold(FolderOf(config.replaceFolderName.value[i]))
  }

  /** A listed replace-folder the update deletes when it exists. */
  predicate Replaceable(config: ClientConfig, i: int, mode: UpdateMode, archiveFolders: Option<set<string>>) {
    Listed(config, i) && InScope(FolderOf(config.replaceFolderName.value[i]), mode, archiveFolders)
  }

  /** The top-level folders of the archive the deletion loop consults: read only in
      an assets update that replaces folders. */
  function ArchiveFolders(config: ClientConfig, mode: UpdateMode, entries: Option<seq<ZipEntry>>): Option<set<string>> {
    if mode == Assets && ShouldReplaceFolders(config) && entries.Some? then Some(TopLevelFolders(entries.value)) else Null
  }

  /** The folded names of the folders the deletion loop deletes: the replaceable
      ones among the existing `folders`. */
  function Deletions(config: ClientConfig, mode: UpdateMode, archiveFolders: Option<set<string>>,
                     folders: set<string>): (deleted: set<string>)
    ensures deleted <= folders
    ensures forall key :: key in deleted ==>
              exists i :: Replaceable(config, i, mode, archiveFolders) && ListedKey(config, i) == key
    ensures forall i :: Replaceable(config, i, mode, archiveFolders) && ListedKey(config, i) in folders ==>
              ListedKey(config, i) in deleted
    ensures mode == Assets && archiveFolders.Some? ==> deleted <= archiveFolders.value
  {
    if ShouldReplaceFolders(config) then
      var names := config.replaceFolderName.value;
      var keys := FoldersToReplace(names, mode, archiveFolders);
      assert forall key :: key in keys ==>
               exists i :: Replaceable(config, i, mode, archiveFolders) && ListedKey(config, i) == key by {
        forall key | key in keys
          ensures exists i :: Replaceable(config, i, mode, archiveFolders) && ListedKey(config, i) == key
        {
          var i :| 0 <= i < |names| && NamesFolder(names[i]) && InScope(FolderOf(names[i]), mode, archiveFolders)
                   && Fold(FolderOf(names[i])) == key;
          assert Replaceable(config, i, mode, archiveFolders);
        }
      }
      keys * folders
    else {}
  }

  /** The replace-folders and the extraction, once the package is downloaded. */
  datatype Unpacked = Unpacked(result: Result<Extraction, UpdateError>, after: Installation, deleted: set<string>)

  /** The deletion loop, `ExtractZip` and the removal of the package. */
  function Unpack(config: ClientConfig, mode: UpdateMode, openArchive: Bytes -> Option<seq<ZipEntry>>,
                  inst: Installation, destination: string): (u: Unpacked)
    requires destination in inst.packages
    // only folders and the package change
    ensures u.after.configs == inst.configs && u.after.versionFile == inst.versionFile
    // an assets update that replaces folders reads the archive first, and throws
    // before deleting anything when it cannot
    ensures var entries := openArchive(inst.packages[destination]);
      mode == Assets && ShouldReplaceFolders(config) && entries.Null? ==> u == Unpacked(Err(ArchiveUnreadable), inst, {})
    // otherwise the replaceable folders that exist are deleted
    ensures var entries := openArchive(inst.packages[destination]);
      !(mode == Assets && ShouldReplaceFolders(config) && entries.Null?) ==>
        u.deleted == Deletions(config, mode, ArchiveFolders(config, mode, entries), inst.folders)
    // an unreadable archive throws and keeps the package
    ensures var entries := openArchive(inst.packages[destination]);
      && (u.result.Err? <==> entries.Null?)
      && (u.result.Err? ==> u.result.error == ArchiveUnreadable && u.after.packages == inst.packages
                            && u.after.folders == inst.folders - u.deleted)
    // a readable archive is extracted over what the deletions left, and the package removed
    ensures var entries := openArchive(inst.packages[destination]);
      u.result.Ok? ==>
        && u.result.value == ExtractZip(entries.value, inst.folders - u.deleted)
        && u.after.folders == (inst.folders - u.deleted) + TopLevelFolders(u.result.value.kept)
        && u.after.packages == inst.packages - {destination}
  {
    var entries := openArchive(inst.packages[destination]);
    if mode == Assets && ShouldReplaceFolders(config) && entries.Null? then
      Unpacked(Err(ArchiveUnreadable), inst, {})
    else
      var deleted := Deletions(config, mode, ArchiveFolders(config, mode, entries), inst.folders);
      var cleared := inst.(folders := inst.folders - deleted);
      if entries.Null? then Unpacked(Err(ArchiveUnreadable), cleared, deleted)
      else
        var extraction := ExtractZip(entries.value, cleared.folders);
        Unpacked(Ok(extraction), cleared.(folders := cleared.folders + TopLevelFolders(extraction.kept),
                                          packages := cleared.packages - {destination}), deleted)
  }

  /** The values the update records: the raw version from the synced
      configuration, else the caller's, else the plan's; its normalisation, else
      the plan's; the plan's remote signature, else one fetched now. */
  datatype Persisted = Persisted(raw: Option<string>, normalized: Option<string>, signature: Option<string>, sent: seq<Request>)

  function PersistedValues(codec: Codec, config: ClientConfig, synced: Option<ClientConfig>, plan: UpdatePlan,
                           server: Server): (p: Persisted)
    // the raw version: the first non-empty of the three sources
    ensures synced.Some? && !IsNullOrEmpty(synced.value.clientVersion) ==> p.raw == synced.value.clientVersion
    ensures (synced.Null? || IsNullOrEmpty(synced.value.clientVersion)) && !IsNullOrEmpty(config.clientVersion) ==>
              p.raw == config.clientVersion
    ensures (synced.Null? || IsNullOrEmpty(synced.value.clientVersion)) && IsNullOrEmpty(config.clientVersion) ==>
              p.raw == plan.remoteVersionRaw
    // the normalised version falls back to the plan's
    ensures !IsNullOrEmpty(codec.normalizeVersion(p.raw)) ==> p.normalized == codec.normalizeVersion(p.raw)
    ensures IsNullOrEmpty(codec.normalizeVersion(p.raw)) ==> p.normalized == plan.remoteVersionNormalized
    // the signature is fetched again only when the plan has none and there is an assets URL
    ensures !IsNullOrEmpty(plan.remoteAssetsSignature) ==> p.signature == plan.remoteAssetsSignature && p.sent == []
    ensures IsNullOrEmpty(plan.remoteAssetsSignature) && IsNullOrEmpty(config.assetsUrl) ==>
              p.signature == plan.remoteAssetsSignature && p.sent == []
    ensures IsNullOrEmpty(plan.remoteAssetsSignature) && !IsNullOrEmpty(config.assetsUrl) ==>
              p.signature == FetchRemoteSignature(config.assetsUrl, server).signature
              && p.sent == FetchRemoteSignature(config.assetsUrl, server).sent
  {
    var fromSync := if synced.Some? then synced.value.clientVersion else Null;
    var raw := if !IsNullOrEmpty(fromSync) then fromSync
               else if !IsNullOrEmpty(config.clientVersion) then config.clientVersion
               else plan.remoteVersionRaw;
    var normalized := if !IsNullOrEmpty(codec.normalizeVersion(raw)) then codec.normalizeVersion(raw)
                      else plan.remoteVersionNormalized;
    if IsNullOrEmpty(plan.remoteAssetsSignature) && !IsNullOrEmpty(config.assetsUrl) then
      var fetch := FetchRemoteSignature(config.assetsUrl, server);
      Persisted(raw, normalized, fetch.signature, fetch.sent)
    else Persisted(raw, normalized, plan.remoteAssetsSignature, [])
  }

  /** The record file after the update: rewritten when there is a normalised
      version, left alone when there is none, `Save`'s exception for a blank one. */
  function RecordVersion(persisted: Persisted, file: VersionFile): (r: Result<VersionFile, UpdateError>)
    ensures IsNullOrEmpty(persisted.normalized) ==> r == Ok(file)
    ensures !IsNullOrEmpty(persisted.normalized) && IsBlank(persisted.normalized.value) ==> r == Err(VersionRejected)
    ensures !IsNullOrWhiteSpace(persisted.normalized) ==>
              && Save(persisted.raw, persisted.normalized, persisted.signature).Ok?
              && r == Ok(Contents(Save(persisted.raw, persisted.normalized, persisted.signature).value))
  {
    if IsNullOrEmpty(persisted.normalized) then Ok(file)
    else match Save(persisted.raw, persisted.normalized, persisted.signature)
      case Ok(text) => Ok(Contents(text))
      case Err(_) => Err(VersionRejected)
  }

  /** The configuration the update reports: what the launcher configuration URL
      served, when it was fetched, written and deserialised to a non-null value;
      the caller's otherwise. */
  function ReportedConfig(config: ClientConfig, env: Environment): ClientConfig {
    if !IsNullOrEmpty(env.launcherConfigUrl) && Succeeds(env.configDocument, env.parse, env.sync)
       && env.parse(env.configDocument.value).Parsed?
    then env.parse(env.configDocument.value).config
    else config
  }

  /** What a completed update reports installing: the first non-empty raw version
      of the reported configuration, the caller's and the plan's remote one; its
      normalisation, or the plan's when it has none; the plan's remote signature,
      or, without one, the signature the assets URL gives now. */
  predicate InstalledFrom(codec: Codec, config: ClientConfig, plan: UpdatePlan, env: Environment, r: ClientUpdateResult) {
    var reported := ReportedConfig(config, env).clientVersion;
    && (!IsNullOrEmpty(reported) ==> r.installedVersionRaw == reported)
    && (IsNullOrEmpty(reported) && !IsNullOrEmpty(config.clientVersion) ==> r.installedVersionRaw == config.clientVersion)
    && (IsNullOrEmpty(reported) && IsNullOrEmpty(config.clientVersion) ==> r.installedVersionRaw == plan.remoteVersionRaw)
    && (!IsNullOrEmpty(codec.normalizeVersion(r.installedVersionRaw)) ==>
          r.installedVersionNormalized == codec.normalizeVersion(r.installedVersionRaw))
    && (IsNullOrEmpty(codec.normalizeVersion(r.installedVersionRaw)) ==>
          r.installedVersionNormalized == plan.remoteVersionNormalized)
    && (!IsNullOrEmpty(plan.remoteAssetsSignature) || IsNullOrEmpty(config.assetsUrl) ==>
          r.assetsSignature == plan.remoteAssetsSignature)
    && (IsNullOrEmpty(plan.remoteAssetsSignature) && !IsNullOrEmpty(config.assetsUrl) ==>
          r.assetsSignature == FetchRemoteSignature(config.assetsUrl, env.server).signature)
  }

  /** The end of the update, after extraction. */
  datatype Conclusion = Conclusion(result: Result<ClientUpdateResult, UpdateError>, after: Installation, sent: seq<Request>)

  /** Sync the launcher configuration, record the installed version, build the result. */
  function Conclude(codec: Codec, config: ClientConfig, plan: UpdatePlan, env: Environment,
                    inst: Installation): (c: Conclusion)
    requires ValidSetting(env.sync, inst.configs)
    // only the two configuration files and the record file change
    ensures c.after.packages == inst.packages && c.after.folders == inst.folders
    ensures AgreeOutside(c.after.configs, inst.configs, {env.sync.baseConfigPath, env.sync.clientConfigPath})
    ensures env.sync.baseBackupPath !in c.after.configs && env.sync.clientBackupPath !in c.after.configs
    // the result carries the synced configuration, or the caller's
    ensures c.result.Ok? ==> c.result.value.updatedConfig == ReportedConfig(config, env)
    ensures c.result.Ok? ==> InstalledFrom(codec, config, plan, env, c.result.value)
    // the record file holds what the result reports, or is untouched when there is no version
    ensures c.result.Ok? ==>
              var r := c.result.value;
              && (!IsNullOrEmpty(r.installedVersionNormalized) ==>
                    && Save(r.installedVersionRaw, r.installedVersionNormalized, r.assetsSignature).Ok?
                    && c.after.versionFile
                       == Contents(Save(r.installedVersionRaw, r.installedVersionNormalized, r.assetsSignature).value))
              && (IsNullOrEmpty(r.installedVersionNormalized) ==> c.after.versionFile == inst.versionFile)
    // the only modelled failure is a blank version, and it leaves the record file alone
    ensures c.result.Err? ==> c.result.error == VersionRejected && c.after.versionFile == inst.versionFile
  {
    var sync := SyncLauncherConfig(config, env.launcherConfigUrl, env.configDocument, env.parse, env.sync, inst.configs);
    var persisted := PersistedValues(codec, config, sync.config, plan, env.server);
    var synced := inst.(configs := sync.files);
    match RecordVersion(persisted, inst.versionFile)
    case Err(e) => Conclusion(Err(e), synced, persisted.sent)
    case Ok(file) =>
      Conclusion(Ok(ClientUpdateResult(if sync.config.Some? then sync.config.value else config,
                                       persisted.raw, persisted.normalized, persisted.signature)),
                 synced.(versionFile := file), persisted.sent)
  }

  /** `ExecuteUpdateAsync`. */
  function ExecuteUpdate(codec: Codec, config: ClientConfig, plan: Option<UpdatePlan>, env: Environment,
                         before: Installation): (x: Execution)
    requires ValidSetting(env.sync, before.configs)
    // a null plan throws, a plan to do nothing returns the local state, and a
    // missing download URL throws: all before anything is touched
    ensures plan.Null? ==> x == Untouched(Err(PlanIsNull), before)
    ensures plan.Some? && plan.value.mode == None ==>
              x == Untouched(Ok(ClientUpdateResult(config, plan.value.localVersionRaw,
                                                   Some(plan.value.localVersionNormalized),
                                                   plan.value.remoteAssetsSignature)), before)
    ensures plan.Some? && plan.value.mode != None && IsNullOrEmpty(DownloadUrl(config, plan.value.mode)) ==>
              x == Untouched(Err(DownloadUrlMissing), before)
    // otherwise the first request downloads the mode's package URL into the mode's package file
    ensures plan.Some? && plan.value.mode != None && !IsNullOrEmpty(DownloadUrl(config, plan.value.mode)) ==>
              var part := PartPath(PackagePath(env, plan.value.mode));
              && x.sent != []
              && x.sent[0] == RangeRequest(DownloadUrl(config, plan.value.mode).value, PartLength(before.packages, part))
              && x.statuses != [] && x.statuses[0] == DownloadStatus(plan.value.mode)
    // a failed download deletes nothing and leaves the folders, configuration and record as they were
    ensures x.result.Err? && x.result.error.DownloadFailed? ==>
              && x.deleted == {} && x.package.Null?
              && x.after == before.(packages := x.after.packages)
  {
    if plan.Null? then Untouched(Err(PlanIsNull), before)
    else if plan.value.mode == None then
      Untouched(Ok(ClientUpdateResult(config, plan.value.localVersionRaw, Some(plan.value.localVersionNormalized),
                                      plan.value.remoteAssetsSignature)), before)
    else
      var mode := plan.value.mode;
      var url := DownloadUrl(config, mode);
      if IsNullOrEmpty(url) then Untouched(Err(DownloadUrlMissing), before)
      else
        var destination := PackagePath(env, mode);
        var download := DownloadFile(url, Some(destination), before.packages, env.server);
        var downloaded := before.(packages := download.files);
        if download.error.Some? then
          Execution(Err(DownloadFailed(download.error.value)), downloaded, download.sent, [DownloadStatus(mode)],
                    download.reports, [], Null, [], {})
        else
          Install(codec, config, plan.value, env, downloaded, destination, download)
  }

  /** Only existing, listed, non-blank replace-folders are ever deleted, and an
      assets update deletes only folders the downloaded archive brings. */
  lemma UpdateDeletesOnlyListedFolders(codec: Codec, config: ClientConfig, plan: Option<UpdatePlan>, env: Environment,
                         before: Installation)
    requires ValidSetting(env.sync, before.configs)
    ensures var x := ExecuteUpdate(codec, config, plan, env, before);
      && x.deleted <= before.folders
      && (forall key :: key in x.deleted ==> exists i :: Listed(config, i) && ListedKey(config, i) == key)
      && (plan.Some? && plan.value.mode == Assets && x.deleted != {} ==>
            && x.package.Some? && env.openArchive(x.package.value).Some?
            && x.deleted <= TopLevelFolders(env.openArchive(x.package.value).value))
  {
    if plan.Some? && plan.value.mode != None && !IsNullOrEmpty(DownloadUrl(config, plan.value.mode)) {
      var destination := PackagePath(env, plan.value.mode);
      var download := DownloadFile(DownloadUrl(config, plan.value.mode), Some(destination), before.packages, env.server);
      if download.error.Null? {
        var x := Install(codec, config, plan.value, env, before.(packages := download.files), destination, download);
        assert ExecuteUpdate(codec, config, plan, env, before) == x;
      }
    }
  }

  /** The two launcher configuration files are the only configuration files the update touches. */
  lemma UpdateTouchesOnlyConfigFiles(codec: Codec, config: ClientConfig, plan: Option<UpdatePlan>, env: Environment,
                         before: Installation)
    requires ValidSetting(env.sync, before.configs)
    ensures var x := ExecuteUpdate(codec, config, plan, env, before);
      AgreeOutside(x.after.configs, before.configs, {env.sync.baseConfigPath, env.sync.clientConfigPath})
  {
    if plan.Some? && plan.value.mode != None && !IsNullOrEmpty(DownloadUrl(config, plan.value.mode)) {
      var destination := PackagePath(env, plan.value.mode);
      var download := DownloadFile(DownloadUrl(config, plan.value.mode), Some(destination), before.packages, env.server);
      if download.error.Null? {
        var x := Install(codec, config, plan.value, env, before.(packages := download.files), destination, download);
        assert ExecuteUpdate(codec, config, plan, env, before) == x;
      }
    }
  }

  /** A completed update extracted the package over what the deletions left,
      removed the package and reported extraction up to 100%. */
  lemma CompletedUpdateExtracts(codec: Codec, config: ClientConfig, plan: Option<UpdatePlan>, env: Environment,
                         before: Installation)
    requires ValidSetting(env.sync, before.configs)
    requires plan.Some? && plan.value.mode != None
    requires ExecuteUpdate(codec, config, plan, env, before).result.Ok?
    ensures var x := ExecuteUpdate(codec, config, plan, env, before);
      && x.package.Some? && env.openArchive(x.package.value).Some?
      && var entries := env.openArchive(x.package.value).value;
      && x.extracted == ExtractZip(entries, before.folders - x.deleted).kept
      && x.after.folders == (before.folders - x.deleted) + TopLevelFolders(x.extracted)
      && PackagePath(env, plan.value.mode) !in x.after.packages
      && x.extractionReports != [] && x.extractionReports[|x.extractionReports| - 1] == 100
  {
    if plan.Some? && plan.value.mode != None && !IsNullOrEmpty(DownloadUrl(config, plan.value.mode)) {
      var destination := PackagePath(env, plan.value.mode);
      var download := DownloadFile(DownloadUrl(config, plan.value.mode), Some(destination), before.packages, env.server);
      if download.error.Null? {
        var x := Install(codec, config, plan.value, env, before.(packages := download.files), destination, download);
        assert ExecuteUpdate(codec, config, plan, env, before) == x;
      }
    }
  }

  /** A completed update returns the synced configuration and the version and
      signature the synced configuration and the plan give. */
  lemma CompletedUpdateReports(codec: Codec, config: ClientConfig, plan: Option<UpdatePlan>, env: Environment,
                         before: Installation)
    requires ValidSetting(env.sync, before.configs)
    requires plan.Some? && plan.value.mode != None
    requires ExecuteUpdate(codec, config, plan, env, before).result.Ok?
    ensures var x := ExecuteUpdate(codec, config, plan, env, before);
      && x.result.value.updatedConfig == ReportedConfig(config, env)
      && InstalledFrom(codec, config, plan.value, env, x.result.value)
  {
    if plan.Some? && plan.value.mode != None && !IsNullOrEmpty(DownloadUrl(config, plan.value.mode)) {
      var destination := PackagePath(env, plan.value.mode);
      var download := DownloadFile(DownloadUrl(config, plan.value.mode), Some(destination), before.packages, env.server);
      if download.error.Null? {
        var x := Install(codec, config, plan.value, env, before.(packages := download.files), destination, download);
        assert ExecuteUpdate(codec, config, plan, env, before) == x;
      }
    }
  }

  /** A completed update records the version it reports, or leaves the record
      alone when it reports none. */
  lemma CompletedUpdateRecords(codec: Codec, config: ClientConfig, plan: Option<UpdatePlan>, env: Environment,
                         before: Installation)
    requires ValidSetting(env.sync, before.configs)
    requires plan.Some? && plan.value.mode != None
    requires ExecuteUpdate(codec, config, plan, env, before).result.Ok?
    ensures var x := ExecuteUpdate(codec, config, plan, env, before);
      var r := x.result.value;
      && (!IsNullOrEmpty(r.installedVersionNormalized) ==>
            && Save(r.installedVersionRaw, r.installedVersionNormalized, r.assetsSignature).Ok?
            && x.after.versionFile
               == Contents(Save(r.installedVersionRaw, r.installedVersionNormalized, r.assetsSignature).value))
      && (IsNullOrEmpty(r.installedVersionNormalized) ==> x.after.versionFile == before.versionFile)
  {
    if plan.Some? && plan.value.mode != None && !IsNullOrEmpty(DownloadUrl(config, plan.value.mode)) {
      var destination := PackagePath(env, plan.value.mode);
      var download := DownloadFile(DownloadUrl(config, plan.value.mode), Some(destination), before.packages, env.server);
      if download.error.Null? {
        var x := Install(codec, config, plan.value, env, before.(packages := download.files), destination, download);
        assert ExecuteUpdate(codec, config, plan, env, before) == x;
      }
    }
  }

  /** The update once the package is downloaded to `destination`: the deletion
      loop, the extraction, then the sync and the record. */
  function Install(codec: Codec, config: ClientConfig, plan: UpdatePlan, env: Environment, inst: Installation,
                   destination: string, download: DownloadRun): (x: Execution)
    requires destination in inst.packages && ValidSetting(env.sync, inst.configs)
    requires plan.mode != None
    ensures x.sent != [] ==> |x.sent| >= |download.sent| && x.sent[..|download.sent|] == download.sent
    ensures x.sent == [] ==> download.sent == []
    ensures x.statuses == [DownloadStatus(plan.mode), ExtractingStatus]
    ensures x.package == Some(inst.packages[destination])
    ensures x.result.Err? ==> !x.result.error.DownloadFailed?
    ensures x.deleted <= inst.folders
    ensures forall key :: key in x.deleted ==> exists i :: Listed(config, i) && ListedKey(config, i) == key
    ensures plan.mode == Assets && x.deleted != {} ==>
              && env.openArchive(x.package.value).Some?
              && x.deleted <= TopLevelFolders(env.openArchive(x.package.value).value)
    ensures AgreeOutside(x.after.configs, inst.configs, {env.sync.baseConfigPath, env.sync.clientConfigPath})
    ensures x.result.Ok? ==>
              && env.openArchive(x.package.value).Some?
              && var entries := env.openArchive(x.package.value).value;
              && x.extracted == ExtractZip(entries, inst.folders - x.deleted).kept
              && x.after.folders == (inst.folders - x.deleted) + TopLevelFolders(x.extracted)
              && destination !in x.after.packages
              && x.extractionReports != [] && x.extractionReports[|x.extractionReports| - 1] == 100
              && x.result.value.updatedConfig == ReportedConfig(config, env)
              && InstalledFrom(codec, config, plan, env, x.result.value)
    ensures x.result.Ok? ==>
              var r := x.result.value;
              && (!IsNullOrEmpty(r.installedVersionNormalized) ==>
                    && Save(r.installedVersionRaw, r.installedVersionNormalized, r.assetsSignature).Ok?
                    && x.after.versionFile
                       == Contents(Save(r.installedVersionRaw, r.installedVersionNormalized, r.assetsSignature).value))
              && (IsNullOrEmpty(r.installedVersionNormalized) ==> x.after.versionFile == inst.versionFile)
  {
    var package := inst.packages[destination];
    var unpacked := Unpack(config, plan.mode, env.openArchive, inst, destination);
    var statuses := [DownloadStatus(plan.mode), ExtractingStatus];
    if unpacked.result.Err? then
      assert download.sent + [] == download.sent;
      Execution(Err(unpacked.result.error), unpacked.after, download.sent, statuses, download.reports, [],
                Some(package), [], unpacked.deleted)
    else
      var extraction := unpacked.result.value;
      var conclusion := Conclude(codec, config, plan, env, unpacked.after);
      Execution(conclusion.result, conclusion.after, download.sent + conclusion.sent, statuses,
                download.reports, extraction.reports, Some(package), extraction.kept, unpacked.deleted)
  }

  /** The record a completed update writes reads back as what the update reports,
      when the raw version is one the record can hold and normalises to the
      normalised one. */
  lemma UpdatedRecordLoadsBack(codec: Codec, config: ClientConfig, plan: UpdatePlan, env: Environment,
                               before: Installation, raw: string, normalized: string)
    requires ValidSetting(env.sync, before.configs)
    requires plan.mode != None
    requires var x := ExecuteUpdate(codec, config, Some(plan), env, before);
      && x.result.Ok?
      && x.result.value.installedVersionRaw == Some(raw)
      && x.result.value.installedVersionNormalized == Some(normalized)
      && (x.result.value.assetsSignature.Some? ==> IsStorable(x.result.value.assetsSignature.value))
    requires raw != "" && IsStorable(raw) && normalized != "" && IsStorable(normalized)
    requires codec.normalizeVersion(Some(raw)) == Some(normalized)
    ensures var x := ExecuteUpdate(codec, config, Some(plan), env, before);
      Load(codec, x.after.versionFile)
        == Some(ClientVersionInfo(Some(raw), normalized, StoredSignature(x.result.value.assetsSignature)))
  {
    var x := ExecuteUpdate(codec, config, Some(plan), env, before);
    CompletedUpdateRecords(codec, config, Some(plan), env, before);
    LoadSaveRoundTrip(codec, raw, normalized, x.result.value.assetsSignature);
  }

  /** The signature a completed update records is the one the planner saw on the
      same server. */
  lemma RecordedSignatureIsRemote(codec: Codec, config: ClientConfig, stored: Option<ClientVersionInfo>,
                                  installedExecutables: set<string>, env: Environment, before: Installation)
    requires ValidSetting(env.sync, before.configs)
    requires var plan := DetermineUpdatePlan(codec, config, stored, installedExecutables, env.server).plan;
      plan.mode != None && ExecuteUpdate(codec, config, Some(plan), env, before).result.Ok?
    ensures var plan := DetermineUpdatePlan(codec, config, stored, installedExecutables, env.server).plan;
      ExecuteUpdate(codec, config, Some(plan), env, before).result.value.assetsSignature
        == RemoteSignature(config, env.server)
  {
    var plan := DetermineUpdatePlan(codec, config, stored, installedExecutables, env.server).plan;
    CompletedUpdateReports(codec, config, Some(plan), env, before);
  }

  /** Planning again after a completed update, against the same configuration and
      server, finds nothing to do: the update recorded the configuration's version,
      its normalisation and the current assets signature. This needs a version and
      signature the record can hold, a comparator that finds a version equal to
      itself, the executable in place, and a launcher configuration that does not
      announce a different version. */
  lemma UpdatedClientIsUpToDate(codec: Codec, config: ClientConfig, stored: Option<ClientVersionInfo>,
                                installedExecutables: set<string>, env: Environment, before: Installation,
                                normalized: string)
    requires ValidSetting(env.sync, before.configs)
    requires var plan := DetermineUpdatePlan(codec, config, stored, installedExecutables, env.server).plan;
      plan.mode != None && ExecuteUpdate(codec, config, Some(plan), env, before).result.Ok?
    requires !IsNullOrEmpty(config.clientVersion) && IsStorable(config.clientVersion.value)
    requires IsNullOrEmpty(ReportedConfig(config, env).clientVersion)
             || ReportedConfig(config, env).clientVersion == config.clientVersion
    requires codec.normalizeVersion(config.clientVersion) == Some(normalized)
    requires normalized != "" && IsStorable(normalized) && ComparesReflexively(codec, normalized)
    requires RemoteSignature(config, env.server).Some? ==> IsStorable(RemoteSignature(config, env.server).value)
    requires !IsNullOrEmpty(config.clientExecutable) && config.clientExecutable.value in installedExecutables
    ensures var plan := DetermineUpdatePlan(codec, config, stored, installedExecutables, env.server).plan;
      var x := ExecuteUpdate(codec, config, Some(plan), env, before);
      DetermineUpdatePlan(codec, config, Load(codec, x.after.versionFile), installedExecutables, env.server).plan.mode
        == None
  {
    var plan := DetermineUpdatePlan(codec, config, stored, installedExecutables, env.server).plan;
    var x := ExecuteUpdate(codec, config, Some(plan), env, before);
    var signature := RemoteSignature(config, env.server);
    CompletedUpdateReports(codec, config, Some(plan), env, before);
    RecordedSignatureIsRemote(codec, config, stored, installedExecutables, env, before);
    assert x.result.value.installedVersionRaw == config.clientVersion;
    assert x.result.value.installedVersionNormalized == Some(normalized);
    UpdatedRecordLoadsBack(codec, config, plan, env, before, config.clientVersion.value, normalized);
    assert StoredSignature(signature) == signature;
    UpToDateNeedsNothing(codec, config, normalized, installedExecutables, env.server);
  }
}

=== FILE: config_sync.dfy ===
/** `ClientUpdater.SyncLauncherConfigAsync` and its backup helpers: download the
    remote launcher configuration, write it to the base and client
    `launcher_config.json`, and put the previous files back when anything fails. */
module ConfigSync {
  import opened Nullable
  import opened DotNetText
  import opened LauncherConfig

  /** Text files by path. */
  type TextFiles = map<string, string>

  /** `a` and `b` hold the same files outside `paths`. */
  ghost predicate AgreeOutside(a: TextFiles, b: TextFiles, paths: set<string>) {
    forall p :: p !in paths ==> (p in a <==> p in b) && (p in a ==> a[p] == b[p])
  }

  /** Where the two configuration files live, the temporary names the two backups
      would get, and which copies and writes the file system refuses. */
  datatype SyncSetting = SyncSetting(
    baseConfigPath: string,
    clientConfigPath: string,
    baseBackupPath: string,
    clientBackupPath: string,
    unreadable: set<string>,
    unwritable: set<string>)

  /** The paths a setting names are usable: non-empty configuration paths and
      fresh, distinct backup names. */
  predicate ValidSetting(setting: SyncSetting, files: TextFiles) {
    && setting.baseConfigPath != "" && setting.clientConfigPath != ""
    && setting.baseBackupPath != "" && setting.clientBackupPath != ""
    && setting.baseBackupPath !in files && setting.clientBackupPath !in files
    && setting.baseBackupPath != setting.clientBackupPath
    && setting.baseBackupPath !in {setting.baseConfigPath, setting.clientConfigPath}
    && setting.clientBackupPath !in {setting.baseConfigPath, setting.clientConfigPath}
  }

  /** The two configuration paths are one file (compared ignoring case). */
  predicate SamePath(setting: SyncSetting) {
    EqualsIgnoreCase(setting.baseConfigPath, setting.clientConfigPath)
  }

  /** A backup and the files after taking it. */
  datatype Backup = Backup(path: Option<string>, files: TextFiles)

  /** `BackupLauncherConfig`: copy an existing file to `backupPath`; no backup when
      the file is missing or the copy fails. */
  function BackupLauncherConfig(source: string, backupPath: string, setting: SyncSetting, files: TextFiles): (b: Backup)
    requires backupPath !in files
    ensures b.path.Some? <==> source != "" && source in files && source !in setting.unreadable
                              && backupPath !in setting.unwritable
    ensures b.path.Some? ==> b.path.value == backupPath && b.files == files[backupPath := files[source]]
    ensures b.path.Null? ==> b.files == files
    ensures AgreeOutside(b.files, files, {backupPath})
  {
    if source == "" || source !in files then Backup(Null, files)
    else if source in setting.unreadable || backupPath in setting.unwritable then Backup(Null, files)
    else Backup(Some(backupPath), files[backupPath := files[source]])
  }

  /** `RestoreLauncherConfig`: copy a backup over `destination`; a failing copy is ignored. */
  function RestoreLauncherConfig(backup: Option<string>, destination: string, setting: SyncSetting, files: TextFiles): (r: TextFiles)
    ensures !IsNullOrEmpty(backup) && backup.value in files && destination != "" && destination !in setting.unwritable ==>
              r == files[destination := files[backup.value]]
    ensures !(!IsNullOrEmpty(backup) && backup.value in files && destination != "" && destination !in setting.unwritable) ==>
              r == files
    ensures AgreeOutside(r, files, {destination})
  {
    if IsNullOrEmpty(backup) || destination == "" || backup.value !in files then files
    else if destination in setting.unwritable then files
    else files[destination := files[backup.value]]
  }

  /** `CleanupLauncherConfigBackup`: delete the backup if there is one. */
  function CleanupLauncherConfigBackup(backup: Option<string>, files: TextFiles): (r: TextFiles)
    ensures !IsNullOrEmpty(backup) ==> r.Keys == files.Keys - {backup.value}
    ensures forall p :: p in r ==> p in files && r[p] == files[p]
    ensures AgreeOutside(r, files, if IsNullOrEmpty(backup) then {} else {backup.value})
  {
    if IsNullOrEmpty(backup) || backup.value !in files then files else files - {backup.value}
  }

  /** How the `try` block ends: it throws after writing some files, or returns
      the deserialised configuration. */
  datatype Attempt = Threw(written: TextFiles) | Returned(written: TextFiles, config: Option<ClientConfig>)

  /** The `try` block: `fetched` is what `GetStringAsync` returned (null when it
      threw); the text goes to the base path, then to the client path unless it
      is the same file, then it is deserialised by `parse`. */
  function WriteAndParse(fetched: Option<string>, parse: string -> ParseOutcome, setting: SyncSetting, files: TextFiles): (a: Attempt)
    ensures AgreeOutside(a.written, files, {setting.baseConfigPath, setting.clientConfigPath})
    ensures a.Returned? <==> Succeeds(fetched, parse, setting)
    ensures a.Returned? ==> a.config == ParsedConfig(parse(fetched.value))
    ensures WroteBase(fetched, setting) ==>
              setting.baseConfigPath in a.written && a.written[setting.baseConfigPath] == fetched.value
    ensures WroteClient(fetched, setting) ==>
              setting.clientConfigPath in a.written && a.written[setting.clientConfigPath] == fetched.value
    ensures !WroteClient(fetched, setting) && setting.clientConfigPath != setting.baseConfigPath ==>
              (setting.clientConfigPath in a.written <==> setting.clientConfigPath in files)
              && (setting.clientConfigPath in files ==> a.written[setting.clientConfigPath] == files[setting.clientConfigPath])
    ensures !WroteBase(fetched, setting) ==> a.written == files
  {
    if fetched.Null? || setting.baseConfigPath in setting.unwritable then Threw(files)
    else
      var json := fetched.value;
      var afterBase := files[setting.baseConfigPath := json];
      if !SamePath(setting) && setting.clientConfigPath in setting.unwritable then Threw(afterBase)
      else
        var written := if SamePath(setting) then afterBase else afterBase[setting.clientConfigPath := json];
        match parse(json)
        case Malformed => Threw(written)
        case NullDocument => Returned(written, Null)
        case Parsed(c) => Returned(written, Some(c))
  }

  /** Whether the whole `try` block runs to its `return`. */
  predicate Succeeds(fetched: Option<string>, parse: string -> ParseOutcome, setting: SyncSetting) {
    && fetched.Some?
    && setting.baseConfigPath !in setting.unwritable
    && (SamePath(setting) || setting.clientConfigPath !in setting.unwritable)
    && !parse(fetched.value).Malformed?
  }

  /** What the sync returns and the files it leaves. */
  datatype SyncOutcome = SyncOutcome(config: Option<ClientConfig>, files: TextFiles)

  /** The configuration a document deserialises to (null for the document `null`). */
  function ParsedConfig(outcome: ParseOutcome): Option<ClientConfig> {
    if outcome.Parsed? then Some(outcome.config) else Null
  }

  /** The base file was overwritten before the `try` block stopped. */
  predicate WroteBase(fetched: Option<string>, setting: SyncSetting) {
    fetched.Some? && setting.baseConfigPath !in setting.unwritable
  }

  /** The client file was overwritten (as a separate file) before the block stopped. */
  predicate WroteClient(fetched: Option<string>, setting: SyncSetting) {
    WroteBase(fetched, setting) && !SamePath(setting) && setting.clientConfigPath !in setting.unwritable
  }

  /** A backup of `path` is taken: the file exists and can be copied. */
  predicate BackedUp(path: string, backupPath: string, setting: SyncSetting, files: TextFiles) {
    path in files && path !in setting.unreadable && backupPath !in setting.unwritable
  }

  /** `SyncLauncherConfigAsync`. */
  function SyncLauncherConfig(config: ClientConfig, launcherConfigUrl: Option<string>, fetched: Option<string>,
                              parse: string -> ParseOutcome, setting: SyncSetting, files: TextFiles): (r: SyncOutcome)
    requires ValidSetting(setting, files)
    // no URL: nothing happens
    ensures IsNullOrEmpty(launcherConfigUrl) ==> r == SyncOutcome(Some(config), files)
    // the backups never survive, and no other file is touched
    ensures setting.baseBackupPath !in r.files && setting.clientBackupPath !in r.files
    ensures AgreeOutside(r.files, files, {setting.baseConfigPath, setting.clientConfigPath})
    // the parsed configuration on success, the caller's on failure
    ensures !IsNullOrEmpty(launcherConfigUrl) && Succeeds(fetched, parse, setting) ==>
              r.config == ParsedConfig(parse(fetched.value))
    ensures !IsNullOrEmpty(launcherConfigUrl) && !Succeeds(fetched, parse, setting) ==> r.config == Some(config)
  {
    if IsNullOrEmpty(launcherConfigUrl) then SyncOutcome(Some(config), files)
    else
      var baseBackup := BackupLauncherConfig(setting.baseConfigPath, setting.baseBackupPath, setting, files);
      var clientBackup :=
        if SamePath(setting) then Backup(Null, baseBackup.files)
        else BackupLauncherConfig(setting.clientConfigPath, setting.clientBackupPath, setting, baseBackup.files);
      var attempt := WriteAndParse(fetched, parse, setting, clientBackup.files);
      var afterTry :=
        if attempt.Returned? then attempt.written
        else RestoreLauncherConfig(clientBackup.path, setting.clientConfigPath, setting,
               RestoreLauncherConfig(baseBackup.path, setting.baseConfigPath, setting, attempt.written));
      var config' := if attempt.Returned? then attempt.config else Some(config);
      var cleaned := CleanupLauncherConfigBackup(clientBackup.path, CleanupLauncherConfigBackup(baseBackup.path, afterTry));
      SyncOutcome(config', cleaned)
  }

  lemma SameFiles(a: TextFiles, b: TextFiles)
    requires AgreeOutside(a, b, {})
    ensures a == b
  {
    assert a.Keys == b.Keys;
  }

  /** A successful sync leaves exactly the old files with the downloaded text at
      the base path, and at the client path when that is another file. */
  lemma SyncWritesBothPaths(config: ClientConfig, launcherConfigUrl: Option<string>, fetched: Option<string>,
                            parse: string -> ParseOutcome, setting: SyncSetting, files: TextFiles)
    requires ValidSetting(setting, files)
    requires !IsNullOrEmpty(launcherConfigUrl) && Succeeds(fetched, parse, setting)
    ensures SyncLauncherConfig(config, launcherConfigUrl, fetched, parse, setting, files).files
         == if SamePath(setting) then files[setting.baseConfigPath := fetched.value]
            else files[setting.baseConfigPath := fetched.value][setting.clientConfigPath := fetched.value]
  {
    var r := SyncLauncherConfig(config, launcherConfigUrl, fetched, parse, setting, files);
    var expected := if SamePath(setting) then files[setting.baseConfigPath := fetched.value]
                    else files[setting.baseConfigPath := fetched.value][setting.clientConfigPath := fetched.value];
    var baseBackup := BackupLauncherConfig(setting.baseConfigPath, setting.baseBackupPath, setting, files);
    var clientBackup :=
      if SamePath(setting) then Backup(Null, baseBackup.files)
      else BackupLauncherConfig(setting.clientConfigPath, setting.clientBackupPath, setting, baseBackup.files);
    var attempt := WriteAndParse(fetched, parse, setting, clientBackup.files);
    assert setting.baseConfigPath in r.files && r.files[setting.baseConfigPath] == fetched.value;
    if !SamePath(setting) {
      assert setting.clientConfigPath in r.files && r.files[setting.clientConfigPath] == fetched.value;
    } else if setting.clientConfigPath != setting.baseConfigPath {
      assert setting.clientConfigPath in r.files <==> setting.clientConfigPath in files;
    }
    assert AgreeOutside(r.files, expected, {});
    SameFiles(r.files, expected);
  }

  /** A failed sync puts back each configuration file it had backed up; a file it
      could not back up keeps whatever was written to it before the failure. */
  lemma SyncFailureRestores(config: ClientConfig, launcherConfigUrl: Option<string>, fetched: Option<string>,
                            parse: string -> ParseOutcome, setting: SyncSetting, files: TextFiles)
    requires ValidSetting(setting, files)
    requires !IsNullOrEmpty(launcherConfigUrl) && !Succeeds(fetched, parse, setting)
    ensures var r := SyncLauncherConfig(config, launcherConfigUrl, fetched, parse, setting, files).files;
      && (BackedUp(setting.baseConfigPath, setting.baseBackupPath, setting, files) ==>
            setting.baseConfigPath in r && r[setting.baseConfigPath] == files[setting.baseConfigPath])
      && (!BackedUp(setting.baseConfigPath, setting.baseBackupPath, setting, files) && WroteBase(fetched, setting) ==>
            setting.baseConfigPath in r && r[setting.baseConfigPath] == fetched.value)
      && (!SamePath(setting) && BackedUp(setting.clientConfigPath, setting.clientBackupPath, setting, files) ==>
            setting.clientConfigPath in r && r[setting.clientConfigPath] == files[setting.clientConfigPath])
      && (!BackedUp(setting.clientConfigPath, setting.clientBackupPath, setting, files) && WroteClient(fetched, setting) ==>
            setting.clientConfigPath in r && r[setting.clientConfigPath] == fetched.value)
  {
    FailureRestoresBase(config, launcherConfigUrl, fetched, parse, setting, files);
    FailureRestoresClient(config, launcherConfigUrl, fetched, parse, setting, files);
  }

  /** The base file after a failed sync. */
  lemma FailureRestoresBase(config: ClientConfig, launcherConfigUrl: Option<string>, fetched: Option<string>,
                            parse: string -> ParseOutcome, setting: SyncSetting, files: TextFiles)
    requires ValidSetting(setting, files)
    requires !IsNullOrEmpty(launcherConfigUrl) && !Succeeds(fetched, parse, setting)
    ensures var r := SyncLauncherConfig(config, launcherConfigUrl, fetched, parse, setting, files).files;
      && (BackedUp(setting.baseConfigPath, setting.baseBackupPath, setting, files) ==>
            setting.baseConfigPath in r && r[setting.baseConfigPath] == files[setting.baseConfigPath])
      && (!BackedUp(setting.baseConfigPath, setting.baseBackupPath, setting, files) && WroteBase(fetched, setting) ==>
            setting.baseConfigPath in r && r[setting.baseConfigPath] == fetched.value)
  {
    var base := setting.baseConfigPath;
    var client := setting.clientConfigPath;
    var baseBackup := BackupLauncherConfig(base, setting.baseBackupPath, setting, files);
    var clientBackup :=
      if SamePath(setting) then Backup(Null, baseBackup.files)
      else BackupLauncherConfig(client, setting.clientBackupPath, setting, baseBackup.files);
    var attempt := WriteAndParse(fetched, parse, setting, clientBackup.files);
    var restoredBase := RestoreLauncherConfig(baseBackup.path, base, setting, attempt.written);
    var restored := RestoreLauncherConfig(clientBackup.path, client, setting, restoredBase);
    assert SyncLauncherConfig(config, launcherConfigUrl, fetched, parse, setting, files).files
        == CleanupLauncherConfigBackup(clientBackup.path, CleanupLauncherConfigBackup(baseBackup.path, restored));
    assert clientBackup.path.Some? ==> client != base;
    if BackedUp(base, setting.baseBackupPath, setting, files) {
      assert setting.baseBackupPath in attempt.written && attempt.written[setting.baseBackupPath] == files[base];
      assert base in restoredBase && restoredBase[base] == files[base];
    } else if WroteBase(fetched, setting) {
      assert restoredBase == attempt.written;
    }
    assert base in restored ==> base in restoredBase && restored[base] == restoredBase[base];
  }

  /** The client file after a failed sync. */
  lemma FailureRestoresClient(config: ClientConfig, launcherConfigUrl: Option<string>, fetched: Option<string>,
                            parse: string -> ParseOutcome, setting: SyncSetting, files: TextFiles)
    requires ValidSetting(setting, files)
    requires !IsNullOrEmpty(launcherConfigUrl) && !Succeeds(fetched, parse, setting)
    ensures var r := SyncLauncherConfig(config, launcherConfigUrl, fetched, parse, setting, files).files;
      && (!SamePath(setting) && BackedUp(setting.clientConfigPath, setting.clientBackupPath, setting, files) ==>
            setting.clientConfigPath in r && r[setting.clientConfigPath] == files[setting.clientConfigPath])
      && (!BackedUp(setting.clientConfigPath, setting.clientBackupPath, setting, files) && WroteClient(fetched, setting) ==>
            setting.clientConfigPath in r && r[setting.clientConfigPath] == fetched.value)
  {
    var base := setting.baseConfigPath;
    var client := setting.clientConfigPath;
    var baseBackup := BackupLauncherConfig(base, setting.baseBackupPath, setting, files);
    var clientBackup :=
      if SamePath(setting) then Backup(Null, baseBackup.files)
      else BackupLauncherConfig(client, setting.clientBackupPath, setting, baseBackup.files);
    var attempt := WriteAndParse(fetched, parse, setting, clientBackup.files);
    var restoredBase := RestoreLauncherConfig(baseBackup.path, base, setting, attempt.written);
    var restored := RestoreLauncherConfig(clientBackup.path, client, setting, restoredBase);
    assert SyncLauncherConfig(config, launcherConfigUrl, fetched, parse, setting, files).files
        == CleanupLauncherConfigBackup(clientBackup.path, CleanupLauncherConfigBackup(baseBackup.path, restored));
    if !SamePath(setting) && BackedUp(client, setting.clientBackupPath, setting, files) {
      assert client != base;
      assert setting.clientBackupPath in attempt.written && attempt.written[setting.clientBackupPath] == files[client];
      assert setting.clientBackupPath in restoredBase;
      assert client in restored && restored[client] == files[client];
    } else if WroteClient(fetched, setting) {
      assert clientBackup.path.Null?;
      assert restored == restoredBase;
    }
  }

  /** Copying a backup back over the file it was taken from changes nothing. */
  lemma RestoreOwnBackup(backup: Option<string>, destination: string, setting: SyncSetting, files: TextFiles)
    requires !IsNullOrEmpty(backup) && backup.value in files ==>
               destination in files && files[destination] == files[backup.value]
    ensures RestoreLauncherConfig(backup, destination, setting, files) == files
  {
    if !IsNullOrEmpty(backup) && backup.value in files {
      assert files[destination := files[backup.value]] == files;
    }
  }

  /** Deleting the backups that were added leaves the files they were taken from. */
  lemma CleanupBackups(setting: SyncSetting, files: TextFiles, baseBackup: Backup, clientBackup: Backup)
    requires ValidSetting(setting, files)
    requires AgreeOutside(clientBackup.files, files, {setting.baseBackupPath, setting.clientBackupPath})
    requires baseBackup.path.Null? || baseBackup.path == Some(setting.baseBackupPath)
    requires clientBackup.path.Null? || clientBackup.path == Some(setting.clientBackupPath)
    requires setting.baseBackupPath in clientBackup.files ==> baseBackup.path.Some?
    requires setting.clientBackupPath in clientBackup.files ==> clientBackup.path.Some?
    ensures CleanupLauncherConfigBackup(clientBackup.path, CleanupLauncherConfigBackup(baseBackup.path, clientBackup.files))
         == files
  {
    var cleaned := CleanupLauncherConfigBackup(clientBackup.path, CleanupLauncherConfigBackup(baseBackup.path, clientBackup.files));
    assert AgreeOutside(cleaned, files, {});
    SameFiles(cleaned, files);
  }

  /** A sync that fails before writing anything leaves every file as it was. */
  lemma FailedFetchChangesNothing(config: ClientConfig, launcherConfigUrl: Option<string>, fetched: Option<string>,
                                  parse: string -> ParseOutcome, setting: SyncSetting, files: TextFiles)
    requires ValidSetting(setting, files)
    requires !WroteBase(fetched, setting)
    ensures SyncLauncherConfig(config, launcherConfigUrl, fetched, parse, setting, files)
         == SyncOutcome(Some(config), files)
  {
    if !IsNullOrEmpty(launcherConfigUrl) {
      var base := setting.baseConfigPath;
      var client := setting.clientConfigPath;
      var baseBackup := BackupLauncherConfig(base, setting.baseBackupPath, setting, files);
      var clientBackup :=
        if SamePath(setting) then Backup(Null, baseBackup.files)
        else BackupLauncherConfig(client, setting.clientBackupPath, setting, baseBackup.files);
      var attempt := WriteAndParse(fetched, parse, setting, clientBackup.files);
      var written := clientBackup.files;
      assert attempt.written == written;
      RestoreOwnBackup(baseBackup.path, base, setting, written);
      RestoreOwnBackup(clientBackup.path, client, setting, written);
      CleanupBackups(setting, files, baseBackup, clientBackup);
    }
  }
}

=== FILE: dotnet_text.dfy ===
/** The .NET string primitives the launcher relies on: `char.IsWhiteSpace`,
    `string.IsNullOrEmpty`, `string.IsNullOrWhiteSpace`, `string.Trim` and the
    `OrdinalIgnoreCase` comparison. */
module DotNetText {
  import opened Nullable

  /** `char.IsWhiteSpace`: the Unicode separators (Zs, Zl, Zp) plus the control
      characters U+0009..U+000D, U+0085 and U+00A0. */
  predicate IsWhiteSpace(c: char) {
    var n := c as int;
    || (9 <= n <= 13) || n == 0x20 || n == 0x85 || n == 0xA0 || n == 0x1680
    || (0x2000 <= n <= 0x200A) || n == 0x2028 || n == 0x2029 || n == 0x202F
    || n == 0x205F || n == 0x3000
  }

  /** Every character of `s` is white space (vacuously true of ""). */
  predicate IsBlank(s: string) {
    forall i :: 0 <= i < |s| ==> IsWhiteSpace(s[i])
  }

  predicate IsNullOrEmpty(s: Option<string>) {
    s.Null? || s.value == ""
  }

  predicate IsNullOrWhiteSpace(s: Option<string>) {
    s.Null? || IsBlank(s.value)
  }

  /** Neither end of `s` is white space: `s` is its own `Trim()`. */
  predicate IsTrimmed(s: string) {
    s == [] || (!IsWhiteSpace(s[0]) && !IsWhiteSpace(s[|s| - 1]))
  }

  /** `s.TrimStart()`: the suffix of `s` left after dropping leading white space. */
  function TrimStart(s: string): (t: string)
    ensures |t| <= |s|
    ensures t == [] || !IsWhiteSpace(t[0])
  {
    if s != [] && IsWhiteSpace(s[0]) then TrimStart(s[1..]) else s
  }

  /** `s.TrimEnd()`: the prefix of `s` left after dropping trailing white space. */
  function TrimEnd(s: string): (t: string)
    ensures |t| <= |s|
    ensures t == [] || !IsWhiteSpace(t[|t| - 1])
    ensures s != [] && !IsWhiteSpace(s[0]) ==> t != [] && t[0] == s[0]
  {
    if s != [] && IsWhiteSpace(s[|s| - 1]) then TrimEnd(s[..|s| - 1]) else s
  }

  /** `TrimStart` drops a blank prefix and keeps the rest. */
  lemma {:induction false} TrimStartDropsBlankPrefix(s: string)
    ensures var t := TrimStart(s); t == s[|s| - |t|..] && IsBlank(s[..|s| - |t|])
  {
    if s != [] && IsWhiteSpace(s[0]) {
      TrimStartDropsBlankPrefix(s[1..]);
    }
  }

  /** `TrimEnd` drops a blank suffix and keeps the rest. */
  lemma {:induction false} TrimEndDropsBlankSuffix(s: string)
    ensures var t := TrimEnd(s); t == s[..|t|] && IsBlank(s[|t|..])
  {
    if s != [] && IsWhiteSpace(s[|s| - 1]) {
      var u := s[..|s| - 1];
      TrimEndDropsBlankSuffix(u);
      var t := TrimEnd(u);
      assert s[|t|..] == u[|t|..] + [s[|s| - 1]];
    }
  }

  /** `t` is the slice `s[i..i + |t|]` and everything of `s` around it is white space. */
  predicate IsBlankPadded(s: string, t: string, i: int) {
    && 0 <= i <= |s| - |t|
    && t == s[i..i + |t|]
    && IsBlank(s[..i])
    && IsBlank(s[i + |t|..])
  }

  /** `s.Trim()`: `s` without its leading and trailing white space. */
  function Trim(s: string): (t: string)
    ensures IsTrimmed(t)
    ensures |t| <= |s|
  {
    TrimEnd(TrimStart(s))
  }

  /** `Trim(s)` is a slice of `s` with only white space around it. */
  lemma TrimIsBlankPadded(s: string)
    ensures exists i :: IsBlankPadded(s, Trim(s), i)
  {
    var u := TrimStart(s);
    var t := TrimEnd(u);
    TrimStartDropsBlankPrefix(s);
    TrimEndDropsBlankSuffix(u);
    var i := |s| - |u|;
    assert s[i..][..|t|] == s[i..i + |t|];
    assert s[i + |t|..] == u[|t|..];
    assert IsBlankPadded(s, t, i);
    assert Trim(s) == t;
  }

  /** `Trim` removes nothing from a string that is already trimmed. */
  lemma TrimOfTrimmed(s: string)
    requires IsTrimmed(s)
    ensures Trim(s) == s
  {
  }

  /** `Trim(s)` is empty exactly when `s` is blank, so `IsNullOrWhiteSpace(s)` and
      `IsNullOrEmpty(s?.Trim())` agree. */
  lemma TrimEmptyIffBlank(s: string)
    ensures Trim(s) == [] <==> IsBlank(s)
  {
    var u := TrimStart(s);
    TrimStartDropsBlankPrefix(s);
    if u == [] {
      assert s[..|s|] == s;
    } else {
      assert !IsWhiteSpace(s[|s| - |u|]);
    }
  }

  /** `Trim` is idempotent. */
  lemma TrimIdempotent(s: string)
    ensures Trim(Trim(s)) == Trim(s)
  {
    TrimOfTrimmed(Trim(s));
  }

  /** The per-character mapping `OrdinalIgnoreCase` compares under; only the
      ASCII letters are folded here. */
  function FoldChar(c: char): char {
    if 'a' <= c <= 'z' then (c as int - 'a' as int + 'A' as int) as char else c
  }

  /** The key under which a `StringComparer.OrdinalIgnoreCase` set stores `s`. */
  function Fold(s: string): (k: string)
    ensures |k| == |s|
    ensures forall i :: 0 <= i < |s| ==> k[i] == FoldChar(s[i])
  {
    if s == [] then [] else [FoldChar(s[0])] + Fold(s[1..])
  }

  /** `string.Equals(a, b, StringComparison.OrdinalIgnoreCase)`. */
  predicate EqualsIgnoreCase(a: string, b: string) {
    Fold(a) == Fold(b)
  }
}

=== FILE: download_manager.dfy ===
/** `DownloadManager`: the resumable download into a `.part` sidecar file and the
    change signature read from response headers. The file system is a map from
    path to contents; the network is a `Server`. */
module DownloadManager {
  import opened Nullable
  import opened DotNetText
  import opened Int64Text
  import opened Http

  type FileMap = map<string, Bytes>

  /** `DownloadProgressInfo`; percentages are exact ratios, not IEEE doubles. */
  datatype Progress = Progress(bytesReceived: nat, totalBytes: Option<nat>, percentage: Option<real>)

  datatype DownloadError =
    | UriNull
    | DestinationNullOrEmpty
    | RequestFailed
    | UnsuccessfulStatus(status: int)
    | TransferInterrupted

  /** The file system after `DownloadFileAsync`, the requests it sent, the progress it
      reported, and the exception it threw (`Null` when it completed). */
  datatype DownloadRun = DownloadRun(
    files: FileMap,
    sent: seq<Request>,
    reports: seq<Progress>,
    error: Option<DownloadError>)

  function PartPath(destination: string): string {
    destination + ".part"
  }

  /** The length of the `.part` file, 0 when there is none. */
  function PartLength(files: FileMap, part: string): nat {
    if part in files then |files[part]| else 0
  }

  /** `SendDownloadRequestAsync`: a GET carrying `Range: bytes=rangeStart-` only when
      `rangeStart` is positive. */
  function RangeRequest(uri: string, rangeStart: nat): Request {
    Request(Get, uri, if rangeStart > 0 then Some(ByteRange(rangeStart, Null)) else Null)
  }

  /** Every request sent for a download is a GET of `uri` whose Range, if any, is
      open-ended and starts past byte 0. */
  predicate IsDownloadRequest(r: Request, uri: string) {
    && r.verb == Get
    && r.uri == uri
    && (r.range.Some? ==> r.range.value.first > 0 && r.range.value.last.Null?)
  }

  function Percentage(received: nat, total: Option<nat>): Option<real> {
    if total.Some? && total.value > 0 then Some(received as real * 100.0 / total.value as real) else Null
  }

  /** The progress reported while writing `chunks` after `received` bytes were
      already on disk: one report per chunk, with cumulative byte counts. */
  function ProgressReports(received: nat, total: Option<nat>, chunks: seq<Chunk>): (ps: seq<Progress>)
    ensures |ps| == |chunks|
    ensures forall i :: 0 <= i < |ps| ==> ps[i].totalBytes == total
    ensures forall i :: 0 <= i < |ps| ==>
      ps[i].percentage == Percentage(ps[i].bytesReceived, total)
    ensures forall i :: 0 <= i < |ps| ==> received < ps[i].bytesReceived
    ensures forall i, j :: 0 <= i < j < |ps| ==> ps[i].bytesReceived < ps[j].bytesReceived
    ensures ps != [] ==> ps[0].bytesReceived == received + |chunks[0]|
    ensures ps != [] ==> ps[|ps| - 1].bytesReceived == received + |Flatten(chunks)|
    decreases |chunks|
  {
    if chunks == [] then []
    else
      var r := received + |chunks[0]|;
      [Progress(r, total, Percentage(r, total))] + ProgressReports(r, total, chunks[1..])
  }

  /** `TotalBytes`: the declared length plus the bytes already on disk, absent
      without a Content-Length. */
  function TotalBytes(response: Response, offset: nat): Option<nat> {
    if response.content.contentLength.Some? then Some(response.content.contentLength.value + offset) else Null
  }

  /** What stays of the `.part` file when writing resumes at `offset`: all of it
      when resuming, nothing when starting from byte 0. */
  function KeptPrefix(files: FileMap, part: string, offset: nat): Bytes {
    if offset > 0 && part in files then files[part] else []
  }

  /** The part of `DownloadFileAsync` after the final response is known: reject a
      non-success status, then write the body at `offset` into the `.part` file and,
      if the body was read to its end, move it over the destination. */
  function Receive(destination: string, files: FileMap, sent: seq<Request>, response: Response, offset: nat): (run: DownloadRun)
    requires offset > 0 ==> PartPath(destination) in files && |files[PartPath(destination)]| == offset
    ensures run.sent == sent
    ensures run.error.Null? ==>
      && IsSuccessStatusCode(response.status)
      && !response.content.interrupted
      && run.files == (files - {PartPath(destination)})[destination :=
           KeptPrefix(files, PartPath(destination), offset) + Flatten(response.content.chunks)]
      && run.reports == ProgressReports(offset, TotalBytes(response, offset), response.content.chunks)
    ensures run.error.Some? ==>
      && (destination in run.files <==> destination in files)
      && (destination in files ==> run.files[destination] == files[destination])
    ensures run.error.Some? && run.error.value.UnsuccessfulStatus? ==> run.reports == [] && run.files == files
    ensures run.error.Some? ==> run.error.value.UnsuccessfulStatus? || run.error.value == TransferInterrupted
    // an interrupted body stays in the `.part` file, after the kept prefix
    ensures run.error == Some(TransferInterrupted) ==>
      && IsSuccessStatusCode(response.status)
      && run.files == files[PartPath(destination) :=
           KeptPrefix(files, PartPath(destination), offset) + Flatten(response.content.chunks)]
      && run.reports == ProgressReports(offset, TotalBytes(response, offset), response.content.chunks)
  {
    var part := PartPath(destination);
    if !IsSuccessStatusCode(response.status) then DownloadRun(files, sent, [], Some(UnsuccessfulStatus(response.status)))
    else
      var kept := KeptPrefix(files, part, offset);
      var written := kept + Flatten(response.content.chunks);
      var reports := ProgressReports(offset, TotalBytes(response, offset), response.content.chunks);
      if response.content.interrupted then DownloadRun(files[part := written], sent, reports, Some(TransferInterrupted))
      else DownloadRun((files - {part})[destination := written], sent, reports, Null)
  }

  /** `DownloadFileAsync`. */
  function DownloadFile(uri: Option<string>, destination: Option<string>, files: FileMap, server: Server): (run: DownloadRun)
    // argument checks throw before anything is sent
    ensures uri.Null? ==> run == DownloadRun(files, [], [], Some(UriNull))
    ensures uri.Some? && IsNullOrEmpty(destination) ==> run == DownloadRun(files, [], [], Some(DestinationNullOrEmpty))
    ensures uri.Some? && !IsNullOrEmpty(destination) ==>
      var part := PartPath(destination.value);
      var existing := PartLength(files, part);
      // the first request resumes from the length of the `.part` file
      && 1 <= |run.sent| <= 2
      && run.sent[0] == RangeRequest(uri.value, existing)
      // a 416, or a 200 to a resume, makes it start over with one unranged request
      && (|run.sent| == 2 <==>
            server(run.sent[0]).Answered?
            && (server(run.sent[0]).response.status == RangeNotSatisfiable
                || (existing > 0 && server(run.sent[0]).response.status == OK)))
      && (|run.sent| == 2 ==> run.sent[1] == RangeRequest(uri.value, 0))
    // on success the destination is the kept prefix followed by the final body, the
    // `.part` file is gone and nothing else changed
    ensures run.error.Null? ==>
      && uri.Some? && !IsNullOrEmpty(destination)
      && var dest := destination.value;
      && var part := PartPath(dest);
      && var last := server(run.sent[|run.sent| - 1]);
      && last.Answered?
      && IsSuccessStatusCode(last.response.status)
      && !last.response.content.interrupted
      && var offset := if |run.sent| == 1 then PartLength(files, part) else 0;
      && run.files == (files - {part})[dest := KeptPrefix(files, part, offset) + Flatten(last.response.content.chunks)]
      && run.reports == ProgressReports(offset, TotalBytes(last.response, offset), last.response.content.chunks)
    // a failed download never replaces or removes the destination
    ensures run.error.Some? && !IsNullOrEmpty(destination) ==>
      && (destination.value in run.files <==> destination.value in files)
      && (destination.value in files ==> run.files[destination.value] == files[destination.value])
    // a non-success status is raised before any byte is written
    ensures run.error.Some? && run.error.value.UnsuccessfulStatus? ==>
      && run.reports == []
      && forall p :: p in run.files ==> p in files && run.files[p] == files[p]
    // an interrupted transfer leaves what it received in the `.part` file: after
    // the kept prefix when resuming, from byte 0 after a restart
    ensures run.error == Some(TransferInterrupted) ==>
      && uri.Some? && !IsNullOrEmpty(destination)
      && var part := PartPath(destination.value);
      && var last := server(run.sent[|run.sent| - 1]);
      && last.Answered?
      && IsSuccessStatusCode(last.response.status)
      && var offset := if |run.sent| == 1 then PartLength(files, part) else 0;
      && run.files == files[part := KeptPrefix(files, part, offset) + Flatten(last.response.content.chunks)]
      && run.reports == ProgressReports(offset, TotalBytes(last.response, offset), last.response.content.chunks)
    // any other failure writes nothing, except that a 416 has already deleted the
    // `.part` file before the restart; a 200 to a resume leaves it for the rewrite
    ensures uri.Some? && !IsNullOrEmpty(destination) && run.error.Some? && run.error != Some(TransferInterrupted) ==>
      && run.reports == []
      && run.files == if |run.sent| == 2 && server(run.sent[0]).Answered?
                          && server(run.sent[0]).response.status == RangeNotSatisfiable
                      then files - {PartPath(destination.value)} else files
  {
    if uri.Null? then DownloadRun(files, [], [], Some(UriNull))
    else if IsNullOrEmpty(destination) then DownloadRun(files, [], [], Some(DestinationNullOrEmpty))
    else
      var dest := destination.value;
      var part := PartPath(dest);
      var existing := PartLength(files, part);
      var first := RangeRequest(uri.value, existing);
      match server(first)
      case Failed => DownloadRun(files, [first], [], Some(RequestFailed))
      case Answered(response) =>
        // a 416 deletes the `.part` file and starts over
        if response.status == RangeNotSatisfiable then
          Restart(uri.value, dest, files, true, first, server)
        // a 200 to a resume starts over and truncates the `.part` file when writing
        else if existing > 0 && response.status == OK then
          Restart(uri.value, dest, files, false, first, server)
        else
          Receive(dest, files, [first], response, existing)
  }

  /** Deleting the `.part` file before rewriting or removing it changes nothing. */
  lemma DeletedPartIsRewritten(files: FileMap, part: string, contents: Bytes)
    ensures (files - {part})[part := contents] == files[part := contents]
    ensures (files - {part}) - {part} == files - {part}
  {
  }

  /** The second, unranged request of `DownloadFileAsync` and what it receives,
      after a 416 has deleted the `.part` file (`deletePart`) or a 200 has ignored it. */
  function Restart(uri: string, destination: string, files: FileMap, deletePart: bool, first: Request, server: Server): (run: DownloadRun)
    ensures run.sent == [first, RangeRequest(uri, 0)]
    ensures run.error.Null? ==>
      && var reply := server(RangeRequest(uri, 0));
      && reply.Answered?
      && IsSuccessStatusCode(reply.response.status)
      && !reply.response.content.interrupted
      && run.files == (files - {PartPath(destination)})[destination :=
           KeptPrefix(files, PartPath(destination), 0) + Flatten(reply.response.content.chunks)]
      && run.reports == ProgressReports(0, TotalBytes(reply.response, 0), reply.response.content.chunks)
    ensures run.error == Some(TransferInterrupted) ==>
      && var reply := server(RangeRequest(uri, 0));
      && reply.Answered?
      && IsSuccessStatusCode(reply.response.status)
      && run.files == files[PartPath(destination) :=
           KeptPrefix(files, PartPath(destination), 0) + Flatten(reply.response.content.chunks)]
      && run.reports == ProgressReports(0, TotalBytes(reply.response, 0), reply.response.content.chunks)
    ensures run.error.Some? && run.error != Some(TransferInterrupted) ==>
      && run.reports == []
      && run.files == if deletePart then files - {PartPath(destination)} else files
  {
    var part := PartPath(destination);
    var start := if deletePart then files - {part} else files;
    var retry := RangeRequest(uri, 0);
    match server(retry)
    case Failed => DownloadRun(start, [first, retry], [], Some(RequestFailed))
    case Answered(response) =>
      DeletedPartIsRewritten(files, part, KeptPrefix(files, part, 0) + Flatten(response.content.chunks));
      Receive(destination, start, [first, retry], response, 0)
  }

  /** Every request a download sends is a GET of its URI, ranged only to resume
      past byte 0. */
  lemma DownloadRequestsAreGets(uri: Option<string>, destination: Option<string>, files: FileMap, server: Server)
    ensures var run := DownloadFile(uri, destination, files, server);
      uri.Some? ==> forall k :: 0 <= k < |run.sent| ==> IsDownloadRequest(run.sent[k], uri.value)
  {
    var run := DownloadFile(uri, destination, files, server);
    if uri.Some? && !IsNullOrEmpty(destination) {
      assert IsDownloadRequest(run.sent[0], uri.value);
      assert |run.sent| == 2 ==> IsDownloadRequest(run.sent[1], uri.value);
    }
  }

  /** `GetHeaderValue` on the values of one header: the first non-empty one. */
  function FirstNonEmpty(values: seq<Option<string>>): (v: Option<string>)
    ensures v.Some? ==> v.value != "" && exists i :: 0 <= i < |values| && values[i] == v
    ensures v.Some? ==> forall i :: 0 <= i < |values| && values[i] != v ==>
      IsNullOrEmpty(values[i]) || exists j :: 0 <= j < i && values[j] == v
    ensures v.Null? <==> forall i :: 0 <= i < |values| ==> IsNullOrEmpty(values[i])
  {
    if values == [] then Null
    else if !IsNullOrEmpty(values[0]) then values[0]
    else
      var v := FirstNonEmpty(values[1..]);
      assert forall i :: 1 <= i < |values| ==> values[i] == values[1..][i - 1];
      v
  }

  /** The value `FirstNonEmpty` picks sits where every value before it is null or
      empty. */
  lemma {:induction false} FirstNonEmptyIsFirst(values: seq<Option<string>>)
    ensures var v := FirstNonEmpty(values);
      v.Some? ==> exists k :: 0 <= k < |values| && values[k] == v && forall j :: 0 <= j < k ==> IsNullOrEmpty(values[j])
  {
    if values != [] && IsNullOrEmpty(values[0]) {
      var v := FirstNonEmpty(values[1..]);
      FirstNonEmptyIsFirst(values[1..]);
      if v.Some? {
        var k :| 0 <= k < |values[1..]| && values[1..][k] == v && forall j :: 0 <= j < k ==> IsNullOrEmpty(values[1..][j]);
        assert values[k + 1] == v && forall j :: 0 <= j < k + 1 ==> IsNullOrEmpty(values[j]);
      }
    }
  }

  /** `GetHeaderValue`: the first non-empty value sent under `name`. */
  function GetHeaderValue(headers: HeaderMap, name: string): (v: Option<string>)
    ensures v.Some? ==> v.value != "" && name in headers && v in headers[name]
    ensures v.Null? <==> name !in headers || forall i :: 0 <= i < |headers[name]| ==> IsNullOrEmpty(headers[name][i])
    // the first non-empty one: every value before it is null or empty
    ensures v.Some? ==>
      exists k :: 0 <= k < |headers[name]| && headers[name][k] == v && forall j :: 0 <= j < k ==> IsNullOrEmpty(headers[name][j])
  {
    if name in headers then FirstNonEmptyIsFirst(headers[name]); FirstNonEmpty(headers[name]) else Null
  }

  /** `TryGetContentLength`: the first non-empty Content-Length value read as a
      `long`, or null. */
  function TryGetContentLength(headers: HeaderMap): (length: Option<int>)
    ensures GetHeaderValue(headers, "Content-Length").Null? ==> length.Null?
    ensures length.Some? ==> InInt64(length.value) && "Content-Length" in headers
    // a value without a digit gives no length
    ensures var v := GetHeaderValue(headers, "Content-Length");
      v.Some? && (forall i :: 0 <= i < |v.value| ==> !IsDigit(v.value[i])) ==> length.Null?
  {
    TryParseLong(GetHeaderValue(headers, "Content-Length"))
  }

  /** A Content-Length whose first non-empty value is the decimal text of a 64-bit
      number gives that number. */
  lemma ContentLengthOfLongText(headers: HeaderMap, n: int)
    requires InInt64(n) && GetHeaderValue(headers, "Content-Length") == Some(LongToString(n))
    ensures TryGetContentLength(headers) == Some(n)
  {
    LongToStringRoundTrip(n);
  }

  function LastModified(response: Response): Option<string> {
    var fromContent := GetHeaderValue(response.content.headers, "Last-Modified");
    if fromContent.Some? then fromContent else GetHeaderValue(response.headers, "Last-Modified")
  }

  function ContentLength(response: Response): Option<int> {
    if response.content.contentLength.Some? then Some(response.content.contentLength.value)
    else TryGetContentLength(response.headers)
  }

  /** `ExtractSignature`: the ETag when there is a non-empty one; otherwise
      "<length or 'null'>:<last-modified>" when either header is present; else null. */
  function ExtractSignature(response: Response): (signature: Option<string>)
    ensures signature.Some? ==> signature.value != ""
    ensures !IsNullOrEmpty(response.etag) ==> signature == response.etag
    ensures IsNullOrEmpty(response.etag) ==>
      (signature.Null? <==> LastModified(response).Null? && ContentLength(response).Null?)
  {
    if !IsNullOrEmpty(response.etag) then response.etag
    else
      var lastModified := LastModified(response);
      var length := ContentLength(response);
      if !IsNullOrEmpty(lastModified) || length.Some? then
        Some((if length.Some? then LongToString(length.value) else "null") + ":" + lastModified.OrElse(""))
      else Null
  }

  /** A header-derived signature starts with the length it was built from: the text
      before its first ':' reads back as that length, and the rest is Last-Modified. */
  lemma SignatureEncodesLength(response: Response)
    requires IsNullOrEmpty(response.etag)
    requires ContentLength(response).Some? && InInt64(ContentLength(response).value)
    ensures ExtractSignature(response).Some?
    ensures var s := ExtractSignature(response).value;
      var n := |LongToString(ContentLength(response).value)|;
      && n < |s| && s[n] == ':'
      && (forall i :: 0 <= i < n ==> s[i] != ':')
      && TryParseLong(Some(s[..n])) == ContentLength(response)
      && s[n + 1..] == LastModified(response).OrElse("")
  {
    var len := ContentLength(response).value;
    var text := LongToString(len);
    var rest := LastModified(response).OrElse("");
    assert ExtractSignature(response) == Some(text + ":" + rest);
    LongTextHasNoColon(len);
    SplitAtColon(text, rest);
    LongToStringRoundTrip(len);
  }

  /** The decimal text of a number holds no ':'. */
  lemma LongTextHasNoColon(n: int)
    ensures forall i :: 0 <= i < |LongToString(n)| ==> LongToString(n)[i] != ':'
  {
    var d := DecimalDigits(if n < 0 then -n else n);
    assert forall i :: 0 <= i < |d| ==> IsDigit(d[i]);
  }

  /** `text + ":" + rest` splits back at its first ':' when `text` holds none. */
  lemma SplitAtColon(text: string, rest: string)
    requires forall i :: 0 <= i < |text| ==> text[i] != ':'
    ensures var s := text + ":" + rest;
      && |text| < |s| && s[|text|] == ':'
      && (forall i :: 0 <= i < |text| ==> s[i] != ':')
      && s[..|text|] == text && s[|text| + 1..] == rest
  {
  }

  /** Without an ETag or a length, the signature is "null:" followed by Last-Modified. */
  lemma SignatureWithoutLength(response: Response)
    requires IsNullOrEmpty(response.etag)
    requires ContentLength(response).Null? && LastModified(response).Some?
    ensures ExtractSignature(response) == Some("null:" + LastModified(response).value)
    ensures LastModified(response).value != ""
  {
    var lastModified := LastModified(response).value;
    assert ExtractSignature(response) == Some("null" + ":" + lastModified);
    assert "null" + ":" + lastModified == "null:" + lastModified;
  }

  /** The signature of a URL and the requests sent to obtain it. */
  datatype SignatureFetch = SignatureFetch(signature: Option<string>, sent: seq<Request>)

  function HeadRequest(uri: string): Request {
    Request(Head, uri, Null)
  }

  /** The `Range: bytes=0-0` probe used when HEAD is refused. */
  function FirstByteRequest(uri: string): Request {
    Request(Get, uri, Some(ByteRange(0, Some(0))))
  }

  /** `TryExtractSignatureWithRangeAsync`: the signature of a successful answer to
      the one-byte probe, null when the probe fails or is refused. */
  function ProbeSignature(uri: string, server: Server): (signature: Option<string>)
    ensures server(FirstByteRequest(uri)).Failed? ==> signature.Null?
    ensures server(FirstByteRequest(uri)).Answered? && !IsSuccessStatusCode(server(FirstByteRequest(uri)).response.status) ==>
              signature.Null?
    ensures server(FirstByteRequest(uri)).Answered? && IsSuccessStatusCode(server(FirstByteRequest(uri)).response.status) ==>
              signature == ExtractSignature(server(FirstByteRequest(uri)).response)
  {
    match server(FirstByteRequest(uri))
    case Failed => Null
    case Answered(response) =>
      if !IsSuccessStatusCode(response.status) then Null else ExtractSignature(response)
  }

  /** `FetchRemoteSignatureAsync`: never throws; failures read as "no signature". */
  function FetchRemoteSignature(uri: Option<string>, server: Server): (f: SignatureFetch)
    ensures f.signature.Some? ==> f.signature.value != ""
    ensures uri.Null? ==> f == SignatureFetch(Null, [])
    ensures uri.Some? ==>
      var head := server(HeadRequest(uri.value));
      && 1 <= |f.sent| <= 2
      && f.sent[0] == HeadRequest(uri.value)
      // a refused or failed HEAD gives no signature; 404 and 405 do not fall back
      && (head.Failed? ==> f == SignatureFetch(Null, [HeadRequest(uri.value)]))
      && (head.Answered? && head.response.status in {NotFound, MethodNotAllowed} ==>
            f == SignatureFetch(Null, [HeadRequest(uri.value)]))
      && (head.Answered? && IsSuccessStatusCode(head.response.status) ==>
            f == SignatureFetch(ExtractSignature(head.response), [HeadRequest(uri.value)]))
      // any other failure status falls back to the one-byte range probe
      && (|f.sent| == 2 <==>
            head.Answered? && !IsSuccessStatusCode(head.response.status)
            && head.response.status !in {NotFound, MethodNotAllowed})
      && (|f.sent| == 2 ==> f.sent[1] == FirstByteRequest(uri.value) && f.signature == ProbeSignature(uri.value, server))
  {
    if uri.Null? then SignatureFetch(Null, [])
    else
      var head := HeadRequest(uri.value);
      match server(head)
      case Failed => SignatureFetch(Null, [head])
      case Answered(response) =>
        if !IsSuccessStatusCode(response.status) then
          if response.status == MethodNotAllowed || response.status == NotFound then SignatureFetch(Null, [head])
          else SignatureFetch(ProbeSignature(uri.value, server), [head, FirstByteRequest(uri.value)])
        else SignatureFetch(ExtractSignature(response), [head])
  }
}

/** A server holding one resource, used to state what a resumed download produces. */
module ResumeScenarios {
  import opened Nullable
  import opened Http
  import opened DownloadManager

  function AsChunks(body: Bytes): (chunks: seq<Chunk>)
    ensures Flatten(chunks) == body
  {
    if body == [] then [] else [body]
  }

  function BodyResponse(status: int, body: Bytes): Response {
    Response(status, Null, map[], Content(Some(|body|), map[], AsChunks(body), false))
  }

  /** Serves `resource` at `uri`. When `honoursRanges` holds it answers an open-ended
      range with 206 and the remaining bytes (section 15.3.7 of RFC 9110), or with 416
      when the range starts at or past the end (section 15.5.17); otherwise it
      ignores Range and always sends the whole resource with 200. */
  function ResourceServer(uri: string, resource: Bytes, honoursRanges: bool): Server {
    (r: Request) =>
      if r.uri != uri || r.verb != Get then Answered(BodyResponse(NotFound, []))
      else if r.range.Null? || !honoursRanges then Answered(BodyResponse(OK, resource))
      else if r.range.value.first < |resource| then
        Answered(BodyResponse(PartialContent, resource[r.range.value.first..]))
      else Answered(BodyResponse(RangeNotSatisfiable, []))
  }

  /** The `.part` file, if any, holds a prefix of the resource: an earlier transfer
      was interrupted. */
  predicate HoldsPrefix(files: FileMap, part: string, resource: Bytes) {
    part in files ==> |files[part]| <= |resource| && files[part] == resource[..|files[part]|]
  }

  /** Resuming an interrupted transfer yields the same file as one uninterrupted
      download, whether or not the server honours ranges: a 200 to a resume does
      not duplicate the prefix, and a 416 for a complete `.part` file restarts. */
  lemma ResumeMatchesSinglePass(uri: string, destination: string, files: FileMap, resource: Bytes, honoursRanges: bool)
    requires destination != ""
    requires HoldsPrefix(files, PartPath(destination), resource)
    ensures var run := DownloadFile(Some(uri), Some(destination), files, ResourceServer(uri, resource, honoursRanges));
      && run.error.Null?
      && run.files == (files - {PartPath(destination)})[destination := resource]
  {
    if PartLength(files, PartPath(destination)) == 0 || !honoursRanges {
      SinglePassWhenRestarting(uri, destination, files, resource, honoursRanges);
    } else {
      SinglePassWhenResuming(uri, destination, files, resource);
    }
  }

  /** No `.part` file, or a server that ignores ranges: one full body is written. */
  lemma SinglePassWhenRestarting(uri: string, destination: string, files: FileMap, resource: Bytes, honoursRanges: bool)
    requires destination != ""
    requires PartLength(files, PartPath(destination)) == 0 || !honoursRanges
    ensures var run := DownloadFile(Some(uri), Some(destination), files, ResourceServer(uri, resource, honoursRanges));
      && run.error.Null?
      && run.files == (files - {PartPath(destination)})[destination := resource]
  {
    var part := PartPath(destination);
    var n := PartLength(files, part);
    var server := ResourceServer(uri, resource, honoursRanges);
    var first := RangeRequest(uri, n);
    var full := BodyResponse(OK, resource);
    assert [] + Flatten(AsChunks(resource)) == resource;
    assert server(first) == Answered(full);
    var sent := if n == 0 then [first] else [first, RangeRequest(uri, 0)];
    if n > 0 {
      assert server(RangeRequest(uri, 0)) == Answered(full);
    }
    assert DownloadFile(Some(uri), Some(destination), files, server) == Receive(destination, files, sent, full, 0);
  }

  /** A `.part` file and a server that honours ranges: the rest of the resource is
      appended, or a complete `.part` file is refused with 416 and fetched again. */
  lemma SinglePassWhenResuming(uri: string, destination: string, files: FileMap, resource: Bytes)
    requires destination != ""
    requires HoldsPrefix(files, PartPath(destination), resource)
    requires PartLength(files, PartPath(destination)) > 0
    ensures var run := DownloadFile(Some(uri), Some(destination), files, ResourceServer(uri, resource, true));
      && run.error.Null?
      && run.files == (files - {PartPath(destination)})[destination := resource]
  {
    var part := PartPath(destination);
    var n := PartLength(files, part);
    var server := ResourceServer(uri, resource, true);
    var first := RangeRequest(uri, n);
    if n < |resource| {
      assert server(first) == Answered(BodyResponse(PartialContent, resource[n..]));
      assert files[part] + resource[n..] == resource;
    } else {
      assert server(first) == Answered(BodyResponse(RangeNotSatisfiable, []));
      assert server(RangeRequest(uri, 0)) == Answered(BodyResponse(OK, resource));
      var run := Receive(destination, files - {part}, [first, RangeRequest(uri, 0)], BodyResponse(OK, resource), 0);
      assert [] + Flatten(AsChunks(resource)) == resource;
      assert run.files == (files - {part})[destination := resource];
    }
  }
}

=== FILE: http.dfy ===
/** Abstract HTTP exchanges: the requests the launcher sends and the replies a
    server may give, with bodies delivered as the chunks a stream read returns. */
module Http {
  import opened Nullable

  newtype byte = x: int | 0 <= x < 256

  type Bytes = seq<byte>

  /** What one successful `Stream.Read` returns: never empty (an empty read ends the stream). */
  type Chunk = c: Bytes | |c| > 0 witness [0]

  function Flatten(chunks: seq<Chunk>): (b: Bytes)
    ensures |b| >= |chunks|
  {
    if chunks == [] then [] else chunks[0] + Flatten(chunks[1..])
  }

  /** Header name to the values sent under it (a value may be null). */
  type HeaderMap = map<string, seq<Option<string>>>

  datatype Method = Get | Head

  /** A `Range: bytes=first-` (open-ended, `last` null) or `bytes=first-last` header,
      section 14.2 of RFC 9110. */
  datatype ByteRange = ByteRange(first: nat, last: Option<nat>)

  datatype Request = Request(verb: Method, uri: string, range: Option<ByteRange>)

  /** A response body: its declared Content-Length, its content headers, the chunks
      read from it, and whether reading failed after those chunks. */
  datatype Content = Content(
    contentLength: Option<nat>,
    headers: HeaderMap,
    chunks: seq<Chunk>,
    interrupted: bool)

  /** `etag` is the parsed ETag tag (section 8.8.3 of RFC 9110), null when absent. */
  datatype Response = Response(status: int, etag: Option<string>, headers: HeaderMap, content: Content)

  /** `Failed` is an `HttpRequestException` or `TaskCanceledException` from `SendAsync`. */
  datatype Reply = Answered(response: Response) | Failed

  /** The server, as the reply it gives to each request. */
  type Server = Request -> Reply

  const OK: int := 200
  const PartialContent: int := 206
  const NotFound: int := 404
  const MethodNotAllowed: int := 405
  const RangeNotSatisfiable: int := 416

  /** `HttpResponseMessage.IsSuccessStatusCode`. */
  predicate IsSuccessStatusCode(status: int) {
    200 <= status <= 299
  }
}

=== FILE: int64_text.dfy ===
/** `long.ToString()` and `long.TryParse` (integer number style, '+' and '-' as
    signs), the two conversions behind the Content-Length part of a change
    signature. */
module Int64Text {
  import opened Nullable

  const Int64Min: int := -0x8000_0000_0000_0000
  const Int64Max: int := 0x7FFF_FFFF_FFFF_FFFF

  predicate InInt64(n: int) {
    Int64Min <= n <= Int64Max
  }

  predicate IsDigit(c: char) {
    '0' <= c <= '9'
  }

  predicate AllDigits(s: string) {
    forall i :: 0 <= i < |s| ==> IsDigit(s[i])
  }

  function DigitChar(d: nat): char
    requires d < 10
  {
    ('0' as int + d) as char
  }

  /** The decimal digits of `n`, most significant first, without leading zeros. */
  function DecimalDigits(n: nat): (s: string)
    ensures s != [] && AllDigits(s)
    decreases n
  {
    if n < 10 then [DigitChar(n)] else DecimalDigits(n / 10) + [DigitChar(n % 10)]
  }

  /** The number a string of decimal digits denotes, most significant first. */
  function DigitsValue(s: string): nat
    requires AllDigits(s)
  {
    if s == [] then 0 else DigitsValue(s[..|s| - 1]) * 10 + (s[|s| - 1] as int - '0' as int)
  }

  /** `n.ToString()` for a `long` (invariant culture). */
  function LongToString(n: int): (s: string)
    ensures s != []
    ensures n >= 0 <==> IsDigit(s[0])
  {
    if n < 0 then "-" + DecimalDigits(-n) else DecimalDigits(n)
  }

  /** The white space `NumberStyles.Integer` allows around a number. */
  predicate IsNumberWhite(c: char) {
    ('\t' <= c <= '\r') || c == ' '
  }

  function SkipLeadingWhite(s: string): (t: string)
    ensures |t| <= |s| && t == s[|s| - |t|..]
  {
    if s != [] && IsNumberWhite(s[0]) then SkipLeadingWhite(s[1..]) else s
  }

  function SkipTrailingWhite(s: string): (t: string)
    ensures |t| <= |s| && t == s[..|t|]
  {
    if s != [] && IsNumberWhite(s[|s| - 1]) then SkipTrailingWhite(s[..|s| - 1]) else s
  }

  /** `long.TryParse(s, out v)`: optional surrounding white space, an optional sign,
      at least one digit, and a value inside the 64-bit range; `Null` when it fails. */
  function TryParseLong(s: Option<string>): (r: Option<int>)
    ensures s.Null? ==> r.Null?
    ensures r.Some? ==> InInt64(r.value)
    // a bare run of digits reads as its decimal value when that fits in 64 bits
    ensures s.Some? && s.value != [] && AllDigits(s.value) ==>
      r == if DigitsValue(s.value) <= Int64Max then Some(DigitsValue(s.value)) else Null
    // text without a digit is not a number
    ensures s.Some? && (forall i :: 0 <= i < |s.value| ==> !IsDigit(s.value[i])) ==> r.Null?
  {
    if s.Null? then Null
    else
      var t := SkipTrailingWhite(SkipLeadingWhite(s.value));
      var negative := t != [] && t[0] == '-';
      var digits := if t != [] && (t[0] == '-' || t[0] == '+') then t[1..] else t;
      assert digits != [] ==> digits[0] in s.value;
      if digits == [] || !AllDigits(digits) then Null
      else
        var magnitude: int := DigitsValue(digits);
        var v := if negative then -magnitude else magnitude;
        if InInt64(v) then Some(v) else Null
  }

  /** Reading the digits of `n` back gives `n`. */
  lemma {:induction false} DigitsValueOfDecimalDigits(n: nat)
    ensures DigitsValue(DecimalDigits(n)) == n
    decreases n
  {
    if n >= 10 {
      var s := DecimalDigits(n);
      assert s[..|s| - 1] == DecimalDigits(n / 10);
      DigitsValueOfDecimalDigits(n / 10);
    }
  }

  /** `long.TryParse(n.ToString())` recovers every 64-bit value `n`. */
  lemma LongToStringRoundTrip(n: int)
    requires InInt64(n)
    ensures TryParseLong(Some(LongToString(n))) == Some(n)
  {
    var s := LongToString(n);
    assert SkipLeadingWhite(s) == s;
    var d := DecimalDigits(if n < 0 then -n else n);
    assert s[|s| - 1] == d[|d| - 1];
    assert SkipTrailingWhite(s) == s;
    if n < 0 {
      assert s[1..] == d;
    }
    DigitsValueOfDecimalDigits(if n < 0 then -n else n);
  }
}

=== FILE: nullable.dfy ===
/** Values that the launcher's C# code treats as possibly-null references, and the
    outcome of calls that may throw. */
module Nullable {

  /** A C# reference that may be null. The empty case is called `Null` (not `None`)
      because the update planner has its own `UpdateMode.None`. */
  datatype Option<+T> = Null | Some(value: T) {

    /** The C# `x ?? fallback` operator. */
    function OrElse(fallback: T): T {
      match this
      case Some(v) => v
      case Null => fallback
    }
  }

  /** The result of a call that either returns normally or throws `error`. */
  datatype Result<+T, +E> = Ok(value: T) | Err(error: E)
}

=== FILE: text_lines.dfy ===
/** `File.ReadAllLines` and `File.WriteAllLines` as functions between a file's text
    and its list of lines (character encoding is not modelled). */
module TextLines {

  /** The characters `StreamReader.ReadLine` treats as ending a line. */
  predicate IsLineBreak(c: char) {
    c == '\r' || c == '\n'
  }

  predicate IsBreakFree(s: string) {
    forall i :: 0 <= i < |s| ==> !IsLineBreak(s[i])
  }

  /** `Environment.NewLine` on Windows, the terminator `WriteAllLines` puts after every line. */
  const NewLine: string := "\r\n"

  /** The length of the first line of `text`: the index of its first line break, or `|text|`. */
  function LineLength(text: string): (n: nat)
    ensures n <= |text|
    ensures IsBreakFree(text[..n])
    ensures n < |text| ==> IsLineBreak(text[n])
  {
    if text == [] || IsLineBreak(text[0]) then 0
    else
      var m := LineLength(text[1..]);
      assert text[..1 + m] == [text[0]] + text[1..][..m];
      1 + m
  }

  /** `File.ReadAllLines`: lines end at "\r\n", "\n" or "\r"; a final line needs no
      terminator, and a terminator at the very end does not start an empty line. */
  function ReadAllLines(text: string): (lines: seq<string>)
    ensures forall i :: 0 <= i < |lines| ==> IsBreakFree(lines[i])
    ensures text == [] <==> lines == []
    decreases |text|
  {
    if text == [] then []
    else
      var n := LineLength(text);
      if n == |text| then [text]
      else
        var next := if text[n] == '\r' && n + 1 < |text| && text[n + 1] == '\n' then n + 2 else n + 1;
        [text[..n]] + ReadAllLines(text[next..])
  }

  /** `File.WriteAllLines`: every line followed by `NewLine`. */
  function WriteAllLines(lines: seq<string>): (text: string)
    ensures lines == [] <==> text == []
  {
    if lines == [] then [] else lines[0] + NewLine + WriteAllLines(lines[1..])
  }

  /** The first line of `line + NewLine + rest` is `line` when `line` has no break. */
  lemma {:induction false} LineLengthOfTerminated(line: string, rest: string)
    requires IsBreakFree(line)
    ensures LineLength(line + NewLine + rest) == |line|
  {
    if line != [] {
      assert (line + NewLine + rest)[1..] == line[1..] + NewLine + rest;
      LineLengthOfTerminated(line[1..], rest);
    }
  }

  /** Reading back what `WriteAllLines` wrote yields the same lines, provided no
      line contains a line break. */
  lemma {:induction false} ReadAllLinesInvertsWriteAllLines(lines: seq<string>)
    requires forall i :: 0 <= i < |lines| ==> IsBreakFree(lines[i])
    ensures ReadAllLines(WriteAllLines(lines)) == lines
  {
    if lines != [] {
      var rest := WriteAllLines(lines[1..]);
      var text := lines[0] + NewLine + rest;
      LineLengthOfTerminated(lines[0], rest);
      var n := |lines[0]|;
      assert text[..n] == lines[0];
      assert text[n] == '\r' && text[n + 1] == '\n';
      assert text[n + 2..] == rest;
      ReadAllLinesInvertsWriteAllLines(lines[1..]);
      assert lines == [lines[0]] + lines[1..];
    }
  }
}

=== FILE: update_planner.dfy ===
/** `ClientUpdater.DetermineUpdatePlanAsync`: whether the installed client needs a
    full reinstall, only an assets refresh, or nothing. */
module UpdatePlanner {
  import opened Nullable
  import opened DotNetText
  import opened Http
  import opened VersionCodec
  import opened LauncherConfig
  import opened ClientVersionStore
  import opened DownloadManager

  datatype UpdateMode = Full | Assets | None

  /** `UpdatePlan`, with the raw remote and local versions the updater also carries. */
  datatype UpdatePlan = UpdatePlan(
    mode: UpdateMode,
    remoteVersionRaw: Option<string>,
    remoteVersionNormalized: Option<string>,
    localVersionRaw: Option<string>,
    localVersionNormalized: string,
    localAssetsSignature: Option<string>,
    remoteAssetsSignature: Option<string>,
    executableExists: bool)

  /** A plan and the requests sent to the assets URL while making it. */
  datatype Planning = Planning(plan: UpdatePlan, sent: seq<Request>)

  /** The remote assets signature is known and differs (ordinally) from the stored one. */
  predicate SignatureChanged(hasAssetsUrl: bool, remoteSignature: Option<string>, localSignature: Option<string>) {
    hasAssetsUrl && !IsNullOrEmpty(remoteSignature) && localSignature != remoteSignature
  }

  /** Both versions carry a build timestamp and the timestamps differ. */
  predicate TimestampDiffers(remote: VersionComponents, local: VersionComponents) {
    remote.hasTimestamp && local.hasTimestamp && remote.timestamp != local.timestamp
  }

  /** The decision when both versions have a base version: another base means a
      full reinstall; the same base means assets when the build or the assets
      signature changed (and there is an assets URL), nothing otherwise. */
  function StructuredMode(remote: VersionComponents, local: VersionComponents, hasAssetsUrl: bool,
                          remoteSignature: Option<string>, localSignature: Option<string>): UpdateMode
  {
    if remote.baseVersion != local.baseVersion then Full
    else if TimestampDiffers(remote, local) && hasAssetsUrl then Assets
    else if SignatureChanged(hasAssetsUrl, remoteSignature, localSignature) then Assets
    else None
  }

  /** The decision from the sign of `CompareNormalizedVersions(local, remote)`: an
      older local version means a full reinstall, an equal one an assets refresh
      when the signature changed, a newer one nothing. */
  function ComparedMode(comparison: int, hasAssetsUrl: bool,
                        remoteSignature: Option<string>, localSignature: Option<string>): UpdateMode
  {
    if comparison < 0 then Full
    else if comparison == 0 && SignatureChanged(hasAssetsUrl, remoteSignature, localSignature) then Assets
    else None
  }

  /** Whether the plan's decision was taken on base versions: the installed client
      is present and both raw versions split into a base version. */
  predicate UsesStructuredComparison(codec: Codec, plan: UpdatePlan) {
    && plan.executableExists
    && plan.localVersionNormalized != ""
    && codec.splitVersionComponents(plan.remoteVersionRaw).hasBaseVersion
    && codec.splitVersionComponents(plan.localVersionRaw).hasBaseVersion
  }

  /** `DetermineUpdatePlanAsync`. `stored` is what `ClientVersionStore.Load`
      returned; `installedExecutables` are the file names present in the client's
      `bin` folder; the assets URL is probed through `server` only when configured. */
  function DetermineUpdatePlan(codec: Codec, config: ClientConfig, stored: Option<ClientVersionInfo>,
                               installedExecutables: set<string>, server: Server): (p: Planning)
    // what the plan records
    ensures p.plan.remoteVersionRaw == config.clientVersion
    ensures p.plan.remoteVersionNormalized == codec.normalizeVersion(config.clientVersion)
    ensures stored.Null? ==> p.plan.localVersionRaw.Null? && p.plan.localVersionNormalized == ""
                             && p.plan.localAssetsSignature.Null?
    ensures stored.Some? ==> p.plan.localVersionRaw == stored.value.versionRaw
                             && p.plan.localVersionNormalized == stored.value.versionNormalized
                             && p.plan.localAssetsSignature == stored.value.assetsSignature
    ensures p.plan.executableExists <==>
              !IsNullOrEmpty(config.clientExecutable) && config.clientExecutable.value in installedExecutables
    // the assets URL is probed exactly when it is configured
    ensures IsNullOrEmpty(config.assetsUrl) ==> p.sent == [] && p.plan.remoteAssetsSignature.Null?
    ensures !IsNullOrEmpty(config.assetsUrl) ==>
              p == Planning(p.plan.(remoteAssetsSignature := FetchRemoteSignature(config.assetsUrl, server).signature),
                            FetchRemoteSignature(config.assetsUrl, server).sent)
    // a missing executable or local version always forces a full reinstall
    ensures !p.plan.executableExists || p.plan.localVersionNormalized == "" ==> p.plan.mode == Full
    // an assets refresh needs an assets URL and an installed client
    ensures p.plan.mode == Assets ==>
              !IsNullOrEmpty(config.assetsUrl) && p.plan.executableExists && p.plan.localVersionNormalized != ""
    // the decision table, both directions of every mode
    ensures var plan := p.plan;
      var remote := codec.splitVersionComponents(plan.remoteVersionRaw);
      var local := codec.splitVersionComponents(plan.localVersionRaw);
      var hasAssetsUrl := !IsNullOrEmpty(config.assetsUrl);
      var changed := SignatureChanged(hasAssetsUrl, plan.remoteAssetsSignature, plan.localAssetsSignature);
      var comparison := codec.compareNormalizedVersions(Some(plan.localVersionNormalized), plan.remoteVersionNormalized);
      && (plan.mode == Full <==>
            || !plan.executableExists
            || plan.localVersionNormalized == ""
            || (UsesStructuredComparison(codec, plan) && remote.baseVersion != local.baseVersion)
            || (!UsesStructuredComparison(codec, plan) && comparison < 0))
      && (plan.mode == Assets <==>
            && plan.executableExists
            && plan.localVersionNormalized != ""
            && (if UsesStructuredComparison(codec, plan)
                then remote.baseVersion == local.baseVersion && ((TimestampDiffers(remote, local) && hasAssetsUrl) || changed)
                else comparison == 0 && changed))
  {
    var remoteRaw := config.clientVersion;
    var localRaw := if stored.Some? then stored.value.versionRaw else Null;
    var localNormalized := if stored.Some? then stored.value.versionNormalized else "";
    var localSignature := if stored.Some? then stored.value.assetsSignature else Null;
    var remote := codec.splitVersionComponents(remoteRaw);
    var local := codec.splitVersionComponents(localRaw);
    var executableExists := !IsNullOrEmpty(config.clientExecutable) && config.clientExecutable.value in installedExecutables;
    var hasAssetsUrl := !IsNullOrEmpty(config.assetsUrl);
    var fetch := if hasAssetsUrl then FetchRemoteSignature(config.assetsUrl, server) else SignatureFetch(Null, []);
    var mode :=
      if !executableExists || localNormalized == "" then Full
      else if remote.hasBaseVersion && local.hasBaseVersion then
        StructuredMode(remote, local, hasAssetsUrl, fetch.signature, localSignature)
      else
        ComparedMode(codec.compareNormalizedVersions(Some(localNormalized), codec.normalizeVersion(remoteRaw)),
                     hasAssetsUrl, fetch.signature, localSignature);
    Planning(
      UpdatePlan(mode, remoteRaw, codec.normalizeVersion(remoteRaw), localRaw, localNormalized,
                 localSignature, fetch.signature, executableExists),
      fetch.sent)
  }

  /** A newer local version is never downgraded or refreshed when the versions
      had to be compared as normalised strings (the signature is not consulted). */
  lemma NewerLocalVersionIsKept(codec: Codec, config: ClientConfig, stored: Option<ClientVersionInfo>,
                                installedExecutables: set<string>, server: Server)
    requires var plan := DetermineUpdatePlan(codec, config, stored, installedExecutables, server).plan;
      && plan.executableExists && plan.localVersionNormalized != ""
      && !UsesStructuredComparison(codec, plan)
      && codec.compareNormalizedVersions(Some(plan.localVersionNormalized), plan.remoteVersionNormalized) > 0
    ensures DetermineUpdatePlan(codec, config, stored, installedExecutables, server).plan.mode == None
  {
  }

  /** The comparator treats a version as equal to itself. */
  predicate ComparesReflexively(codec: Codec, normalized: string) {
    codec.compareNormalizedVersions(Some(normalized), Some(normalized)) == 0
  }

  /** The remote signature the planner will see for `config` on `server`. */
  function RemoteSignature(config: ClientConfig, server: Server): Option<string> {
    if IsNullOrEmpty(config.assetsUrl) then Null else FetchRemoteSignature(config.assetsUrl, server).signature
  }

  /** An installed client whose record holds the remote raw version, its
      normalisation and the remote assets signature needs no update. */
  lemma UpToDateNeedsNothing(codec: Codec, config: ClientConfig, normalized: string, installedExecutables: set<string>, server: Server)
    requires normalized != ""
    requires codec.normalizeVersion(config.clientVersion) == Some(normalized)
    requires ComparesReflexively(codec, normalized)
    requires !IsNullOrEmpty(config.clientExecutable) && config.clientExecutable.value in installedExecutables
    ensures DetermineUpdatePlan(codec, config,
              Some(ClientVersionInfo(config.clientVersion, normalized, RemoteSignature(config, server))),
              installedExecutables, server).plan.mode == None
  {
  }
}

=== FILE: version_codec.dfy ===
/** The version helpers of `LauncherUtils` that the updater and the version store
    call. Their definitions are not part of this model, so they are carried as
    function-valued parameters: every property proved here holds for any
    normaliser, splitter and comparator. */
module VersionCodec {
  import opened Nullable

  /** `LauncherUtils.VersionComponents`: the release line ("base") and the build
      ("timestamp") split out of a raw version string. */
  datatype VersionComponents = VersionComponents(
    hasBaseVersion: bool,
    baseVersion: Option<string>,
    hasTimestamp: bool,
    timestamp: Option<string>)

  /** `NormalizeVersion`, `SplitVersionComponents` and `CompareNormalizedVersions`.
      Only the sign of `compareNormalizedVersions` is ever consulted. */
  datatype Codec = Codec(
    normalizeVersion: Option<string> -> Option<string>,
    splitVersionComponents: Option<string> -> VersionComponents,
    compareNormalizedVersions: (Option<string>, Option<string>) -> int)
}

=== FILE: version_store.dfy ===
/** `ClientVersionStore`: the 1-3 line `client_version.txt` record holding the
    installed version (raw and normalised) and the assets signature. */
module ClientVersionStore {
  import opened Nullable
  import opened DotNetText
  import opened TextLines
  import opened VersionCodec

  /** `ClientVersionInfo`. */
  datatype ClientVersionInfo = ClientVersionInfo(
    versionRaw: Option<string>,
    versionNormalized: string,
    assetsSignature: Option<string>)

  /** The record file as `Load` finds it; `Unreadable` stands for an
      `IOException` or `UnauthorizedAccessException` while reading it. */
  datatype VersionFile = Missing | Unreadable | Contents(text: string)

  /** `Save` rejects an empty normalised version with an `ArgumentException`. */
  datatype SaveError = EmptyVersion

  /** A value one line of the file can hold and give back unchanged. */
  predicate IsStorable(s: string) {
    IsTrimmed(s) && IsBreakFree(s)
  }

  /** What every record `Load` returns satisfies: a non-empty normalised version, a
      raw version only when it normalises to that version, no empty signature. */
  predicate IsWellFormed(codec: Codec, info: ClientVersionInfo) {
    && info.versionNormalized != ""
    && IsStorable(info.versionNormalized)
    && (info.versionRaw.Some? ==>
          && info.versionRaw.value != ""
          && IsStorable(info.versionRaw.value)
          && codec.normalizeVersion(info.versionRaw) == Some(info.versionNormalized))
    && (info.assetsSignature.Some? ==>
          info.assetsSignature.value != "" && IsStorable(info.assetsSignature.value))
  }

  /** The local `TrimLine` of `Load`. */
  function TrimLine(lines: seq<string>, index: int): Option<string> {
    if 0 <= index < |lines| then Some(Trim(lines[index])) else Null
  }

  /** The heuristic that tells the raw+normalised+signature layout from the legacy
      normalised+signature one: line 1 normalises to line 2. */
  predicate LooksLikeNewFormat(codec: Codec, first: Option<string>, second: Option<string>) {
    !IsNullOrEmpty(first) && !IsNullOrEmpty(second) && codec.normalizeVersion(first) == second
  }

  function NullIfEmpty(s: Option<string>): (r: Option<string>)
    ensures r.Some? ==> r.value != ""
  {
    if IsNullOrEmpty(s) then Null else s
  }

  /** The record the trimmed first three lines denote, before empty values are
      dropped: one line is a bare normalised version; two or more are raw +
      normalised + signature when the heuristic says so, else the legacy
      normalised + signature with a non-empty third line taking over the signature. */
  function Interpret(codec: Codec, lineCount: nat, first: string, second: Option<string>, third: Option<string>): ClientVersionInfo
    requires lineCount >= 2 ==> second.Some?
  {
    if lineCount == 1 then ClientVersionInfo(Null, first, Null)
    else if LooksLikeNewFormat(codec, Some(first), second) then ClientVersionInfo(Some(first), second.value, third)
    else ClientVersionInfo(Null, first, if !IsNullOrEmpty(third) then third else second)
  }

  /** No record without a normalised version; an empty signature reads as null. */
  function Finish(record: ClientVersionInfo): Option<ClientVersionInfo> {
    if record.versionNormalized == "" then Null
    else Some(record.(assetsSignature := NullIfEmpty(record.assetsSignature)))
  }

  /** `Load` once the lines are read. */
  function ParseLines(codec: Codec, lines: seq<string>): (r: Option<ClientVersionInfo>)
    requires forall i :: 0 <= i < |lines| ==> IsBreakFree(lines[i])
    ensures lines == [] ==> r.Null?
    // whatever the layout, there is a record exactly when the first line is not blank
    ensures r.Null? <==> lines == [] || IsBlank(lines[0])
    ensures r.Some? ==> IsWellFormed(codec, r.value)
  {
    if lines == [] then Null
    else
      var first := Trim(lines[0]);
      var second := TrimLine(lines, 1);
      var third := TrimLine(lines, 2);
      TrimmedLinesAreStorable(lines);
      TrimEmptyIffBlank(lines[0]);
      Finish(Interpret(codec, |lines|, first, second, third))
  }

  lemma TrimmedLinesAreStorable(lines: seq<string>)
    requires forall i :: 0 <= i < |lines| ==> IsBreakFree(lines[i])
    ensures forall i :: 0 <= i < |lines| ==> IsStorable(Trim(lines[i]))
  {
    forall i | 0 <= i < |lines| {
      TrimKeepsBreakFree(lines[i]);
    }
  }

  /** A trimmed line is a slice of the line, so it has no line break either. */
  lemma TrimKeepsBreakFree(line: string)
    requires IsBreakFree(line)
    ensures IsStorable(Trim(line))
  {
    var t := Trim(line);
    TrimIsBlankPadded(line);
    var k :| IsBlankPadded(line, t, k);
    assert forall j :: 0 <= j < |t| ==> t[j] == line[k + j];
  }

  /** `Load`: no record for a missing, unreadable, empty or blank file. */
  function Load(codec: Codec, file: VersionFile): (r: Option<ClientVersionInfo>)
    ensures file.Missing? || file.Unreadable? ==> r.Null?
    ensures file.Contents? && ReadAllLines(file.text) == [] ==> r.Null?
    ensures file.Contents? ==>
      (r.Null? <==> ReadAllLines(file.text) == [] || IsBlank(ReadAllLines(file.text)[0]))
    ensures r.Some? ==> IsWellFormed(codec, r.value)
  {
    match file
    case Missing => Null
    case Unreadable => Null
    case Contents(text) => ParseLines(codec, ReadAllLines(text))
  }

  /** The lines `Save` writes: raw and normalised when raw is not blank, otherwise
      normalised alone, then the signature when it is not empty. */
  function SaveLines(versionRaw: Option<string>, versionNormalized: Option<string>, assetsSignature: Option<string>): (r: Result<seq<string>, SaveError>)
    ensures r.Err? <==> IsNullOrWhiteSpace(versionNormalized)
    ensures r.Ok? ==> 1 <= |r.value| <= 3
  {
    if IsNullOrWhiteSpace(versionNormalized) then Err(EmptyVersion)
    else
      var lines := if !IsNullOrWhiteSpace(versionRaw) then [versionRaw.value, versionNormalized.value]
                   else [versionNormalized.value];
      Ok(if !IsNullOrEmpty(assetsSignature) then lines + [assetsSignature.value] else lines)
  }

  /** `Save`: the text written to the record file, or the `ArgumentException`. */
  function Save(versionRaw: Option<string>, versionNormalized: Option<string>, assetsSignature: Option<string>): (r: Result<string, SaveError>)
    ensures r.Err? <==> IsNullOrWhiteSpace(versionNormalized)
  {
    match SaveLines(versionRaw, versionNormalized, assetsSignature)
    case Ok(lines) => Ok(WriteAllLines(lines))
    case Err(e) => Err(e)
  }

  /** The file `Save` writes reads back as the lines it was given. */
  lemma ReadSavedLines(versionRaw: Option<string>, versionNormalized: Option<string>, assetsSignature: Option<string>)
    requires SaveLines(versionRaw, versionNormalized, assetsSignature).Ok?
    requires !IsNullOrWhiteSpace(versionRaw) ==> IsBreakFree(versionRaw.value)
    requires IsBreakFree(versionNormalized.value)
    requires assetsSignature.Some? ==> IsBreakFree(assetsSignature.value)
    ensures ReadAllLines(Save(versionRaw, versionNormalized, assetsSignature).value)
         == SaveLines(versionRaw, versionNormalized, assetsSignature).value
  {
    ReadAllLinesInvertsWriteAllLines(SaveLines(versionRaw, versionNormalized, assetsSignature).value);
  }

  /** The value a signature has after it was written and read back. */
  function StoredSignature(assetsSignature: Option<string>): Option<string> {
    NullIfEmpty(assetsSignature)
  }

  /** A one-line file holds just the normalised version, trimmed; a blank line
      gives no record. */
  lemma ParseOneLine(codec: Codec, line: string)
    requires IsBreakFree(line)
    ensures ParseLines(codec, [line])
         == if IsBlank(line) then Null else Some(ClientVersionInfo(Null, Trim(line), Null))
  {
    TrimEmptyIffBlank(line);
  }

  /** Two or more lines, read as they are in the file: a blank first line gives no
      record; the trimmed lines are raw + normalised (+ signature) when the second
      is not blank and the first normalises to it, and legacy normalised +
      signature otherwise, where a non-blank third line takes over the signature
      and a blank second one leaves none. */
  lemma ParseSeveralLines(codec: Codec, lines: seq<string>)
    requires |lines| >= 2 && forall i :: 0 <= i < |lines| ==> IsBreakFree(lines[i])
    ensures ParseLines(codec, lines)
         == if IsBlank(lines[0]) then Null
            else if !IsBlank(lines[1]) && codec.normalizeVersion(Some(Trim(lines[0]))) == Some(Trim(lines[1]))
            then Some(ClientVersionInfo(Some(Trim(lines[0])), Trim(lines[1]),
                                        if |lines| == 2 || IsBlank(lines[2]) then Null else Some(Trim(lines[2]))))
            else Some(ClientVersionInfo(Null, Trim(lines[0]),
                                        if |lines| > 2 && !IsBlank(lines[2]) then Some(Trim(lines[2]))
                                        else if IsBlank(lines[1]) then Null else Some(Trim(lines[1]))))
  {
    TrimEmptyIffBlank(lines[0]);
    TrimEmptyIffBlank(lines[1]);
    assert TrimLine(lines, 1) == Some(Trim(lines[1]));
    if |lines| > 2 {
      TrimEmptyIffBlank(lines[2]);
      assert TrimLine(lines, 2) == Some(Trim(lines[2]));
    } else {
      assert TrimLine(lines, 2) == Null;
    }
  }

  /** Two lines are raw + normalised when the second is not blank and the first
      normalises to it, and legacy normalised + signature otherwise; a blank first
      line gives no record and a blank second line no signature. */
  lemma ParseTwoLines(codec: Codec, first: string, second: string)
    requires IsBreakFree(first) && IsBreakFree(second)
    ensures ParseLines(codec, [first, second])
         == if IsBlank(first) then Null
            else if !IsBlank(second) && codec.normalizeVersion(Some(Trim(first))) == Some(Trim(second))
            then Some(ClientVersionInfo(Some(Trim(first)), Trim(second), Null))
            else Some(ClientVersionInfo(Null, Trim(first), if IsBlank(second) then Null else Some(Trim(second))))
  {
    ParseSeveralLines(codec, [first, second]);
  }

  /** Three lines are raw + normalised + signature when the first normalises to the
      second; otherwise the legacy reading takes the non-empty third line as the
      signature. */
  lemma ParseThreeLines(codec: Codec, lines: seq<string>, first: string, second: string, third: string)
    requires first != "" && IsStorable(first)
    requires second != "" && IsStorable(second)
    requires third != "" && IsStorable(third)
    requires lines == [first, second, third]
    ensures ParseLines(codec, lines)
         == if codec.normalizeVersion(Some(first)) == Some(second)
            then Some(ClientVersionInfo(Some(first), second, Some(third)))
            else Some(ClientVersionInfo(Null, first, Some(third)))
  {
    TrimOfTrimmed(first);
    TrimOfTrimmed(second);
    TrimOfTrimmed(third);
    assert TrimLine(lines, 0) == Some(first);
    assert TrimLine(lines, 1) == Some(second);
    assert TrimLine(lines, 2) == Some(third);
  }

  /** Three or more lines: only the first three are read. In the new layout a
      blank third line means no signature; in the legacy layout a blank third line
      leaves the second line as the signature. */
  lemma ParseLongerFile(codec: Codec, lines: seq<string>, first: string, second: string)
    requires |lines| >= 3 && forall i :: 0 <= i < |lines| ==> IsBreakFree(lines[i])
    requires first != "" && IsStorable(first) && lines[0] == first
    requires second != "" && IsStorable(second) && lines[1] == second
    ensures ParseLines(codec, lines)
         == if codec.normalizeVersion(Some(first)) == Some(second)
            then Some(ClientVersionInfo(Some(first), second, if IsBlank(lines[2]) then Null else Some(Trim(lines[2]))))
            else Some(ClientVersionInfo(Null, first, Some(if IsBlank(lines[2]) then second else Trim(lines[2]))))
  {
    TrimOfTrimmed(first);
    TrimOfTrimmed(second);
    TrimEmptyIffBlank(lines[2]);
    assert TrimLine(lines, 1) == Some(second);
    assert TrimLine(lines, 2) == Some(Trim(lines[2]));
  }

  /** The lines `Save` writes for a non-blank raw version, read back by `Load`. */
  lemma LoadSavedWithRaw(codec: Codec, raw: string, normalized: string, signature: Option<string>)
    requires raw != "" && IsStorable(raw)
    requires normalized != "" && IsStorable(normalized)
    requires signature.Some? ==> IsStorable(signature.value)
    ensures Save(Some(raw), Some(normalized), signature).Ok?
    ensures Load(codec, Contents(Save(Some(raw), Some(normalized), signature).value))
         == if codec.normalizeVersion(Some(raw)) == Some(normalized)
            then Some(ClientVersionInfo(Some(raw), normalized, StoredSignature(signature)))
            else Some(ClientVersionInfo(Null, raw, if !IsNullOrEmpty(signature) then signature else Some(normalized)))
  {
    if !IsNullOrEmpty(signature) {
      LoadSavedThreeLines(codec, raw, normalized, signature);
    } else {
      LoadSavedTwoLines(codec, raw, normalized, signature);
    }
  }

  /** `LoadSavedWithRaw` when there is a signature: three lines. */
  lemma LoadSavedThreeLines(codec: Codec, raw: string, normalized: string, signature: Option<string>)
    requires raw != "" && IsStorable(raw)
    requires normalized != "" && IsStorable(normalized)
    requires signature.Some? ==> IsStorable(signature.value)
    requires !IsNullOrEmpty(signature)
    ensures Save(Some(raw), Some(normalized), signature).Ok?
    ensures Load(codec, Contents(Save(Some(raw), Some(normalized), signature).value))
         == if codec.normalizeVersion(Some(raw)) == Some(normalized)
            then Some(ClientVersionInfo(Some(raw), normalized, StoredSignature(signature)))
            else Some(ClientVersionInfo(Null, raw, if !IsNullOrEmpty(signature) then signature else Some(normalized)))
  {
    TrimEmptyIffBlank(raw);
    TrimEmptyIffBlank(normalized);
    TrimOfTrimmed(raw);
    ReadSavedLines(Some(raw), Some(normalized), signature);
    ParseThreeLines(codec, [raw, normalized, signature.value], raw, normalized, signature.value);
  }

  /** `LoadSavedWithRaw` without a signature: two lines. */
  lemma LoadSavedTwoLines(codec: Codec, raw: string, normalized: string, signature: Option<string>)
    requires raw != "" && IsStorable(raw)
    requires normalized != "" && IsStorable(normalized)
    requires signature.Some? ==> IsStorable(signature.value)
    requires IsNullOrEmpty(signature)
    ensures Save(Some(raw), Some(normalized), signature).Ok?
    ensures Load(codec, Contents(Save(Some(raw), Some(normalized), signature).value))
         == if codec.normalizeVersion(Some(raw)) == Some(normalized)
            then Some(ClientVersionInfo(Some(raw), normalized, StoredSignature(signature)))
            else Some(ClientVersionInfo(Null, raw, if !IsNullOrEmpty(signature) then signature else Some(normalized)))
  {
    TrimEmptyIffBlank(raw);
    TrimEmptyIffBlank(normalized);
    TrimOfTrimmed(raw);
    ReadSavedLines(Some(raw), Some(normalized), signature);
    TrimOfTrimmed(raw);
    TrimOfTrimmed(normalized);
    TrimEmptyIffBlank(raw);
    TrimEmptyIffBlank(normalized);
    ParseTwoLines(codec, raw, normalized);
  }

  /** With a non-blank raw version that normalises to the normalised one, `Load`
      gives back exactly what `Save` was given (an empty signature reads as null). */
  lemma LoadSaveRoundTrip(codec: Codec, raw: string, normalized: string, signature: Option<string>)
    requires raw != "" && IsStorable(raw)
    requires normalized != "" && IsStorable(normalized)
    requires signature.Some? ==> IsStorable(signature.value)
    requires codec.normalizeVersion(Some(raw)) == Some(normalized)
    ensures Save(Some(raw), Some(normalized), signature).Ok?
    ensures Load(codec, Contents(Save(Some(raw), Some(normalized), signature).value))
         == Some(ClientVersionInfo(Some(raw), normalized, StoredSignature(signature)))
  {
    LoadSavedWithRaw(codec, raw, normalized, signature);
  }

  /** A non-blank raw version that does not normalise to the normalised one is not
      recognised on reading: the record comes back in the legacy layout, with the
      raw version as the normalised one and the signature (or, without one, the
      normalised version) as the signature. */
  lemma LoadSaveMismatchedRaw(codec: Codec, raw: string, normalized: string, signature: Option<string>)
    requires raw != "" && IsStorable(raw)
    requires normalized != "" && IsStorable(normalized)
    requires signature.Some? ==> IsStorable(signature.value)
    requires codec.normalizeVersion(Some(raw)) != Some(normalized)
    ensures Save(Some(raw), Some(normalized), signature).Ok?
    ensures Load(codec, Contents(Save(Some(raw), Some(normalized), signature).value))
         == Some(ClientVersionInfo(Null, raw, if !IsNullOrEmpty(signature) then signature else Some(normalized)))
  {
    LoadSavedWithRaw(codec, raw, normalized, signature);
  }

  /** Without a raw version the record reads back with no raw version, except when
      the signature happens to equal the normalisation of the normalised version:
      the two lines then look like the new layout and are misread as raw + normalised. */
  lemma LoadSaveWithoutRaw(codec: Codec, raw: Option<string>, normalized: string, signature: Option<string>)
    requires IsNullOrWhiteSpace(raw)
    requires normalized != "" && IsStorable(normalized)
    requires signature.Some? ==> IsStorable(signature.value)
    ensures Save(raw, Some(normalized), signature).Ok?
    ensures Load(codec, Contents(Save(raw, Some(normalized), signature).value))
         == if !IsNullOrEmpty(signature) && codec.normalizeVersion(Some(normalized)) == signature
            then Some(ClientVersionInfo(Some(normalized), signature.value, Null))
            else Some(ClientVersionInfo(Null, normalized, StoredSignature(signature)))
  {
    TrimEmptyIffBlank(normalized);
    ReadSavedLines(raw, Some(normalized), signature);
    if !IsNullOrEmpty(signature) {
      TrimOfTrimmed(normalized);
      TrimOfTrimmed(signature.value);
      TrimEmptyIffBlank(signature.value);
      ParseTwoLines(codec, normalized, signature.value);
    } else {
      TrimOfTrimmed(normalized);
      ParseOneLine(codec, normalized);
    }
  }

  /** Saving a record `Load` returned and loading it again gives the same record,
      unless it has no raw version and its signature is the normalisation of its
      normalised version (the ambiguous case above). */
  lemma SaveLoadedRecord(codec: Codec, info: ClientVersionInfo)
    requires IsWellFormed(codec, info)
    requires info.versionRaw.Null? && info.assetsSignature.Some? ==>
      codec.normalizeVersion(Some(info.versionNormalized)) != info.assetsSignature
    ensures Save(info.versionRaw, Some(info.versionNormalized), info.assetsSignature).Ok?
    ensures Load(codec, Contents(Save(info.versionRaw, Some(info.versionNormalized), info.assetsSignature).value))
         == Some(info)
  {
    if info.versionRaw.Some? {
      LoadSaveRoundTrip(codec, info.versionRaw.value, info.versionNormalized, info.assetsSignature);
    } else {
      LoadSaveWithoutRaw(codec, Null, info.versionNormalized, info.assetsSignature);
    }
  }
}
